=== FILE: README.md ===
# Server registry of the VPS process panel, in Dafny

`app.py` is a Flask dashboard that starts, stops, restarts and deletes long-running
child processes ("servers"), copies their output into a per-server log, restarts
them on a timer, and persists their configuration to `servers_db.json`. Its core is
the in-memory registry `SERVERS`: a map from server id to an entry with the fields
`process`, `status`, `cmd`, `cwd`, `path`, `auto_restart`, `restart_interval`,
`logs` and `last_start_time`. This project models that registry as an immutable
value and every operation on it as a pure state-to-state function, and proves
properties of single operations and of arbitrary interleavings of them.

How the model represents what Python does:

- A `Popen` object is a natural-number `Token`. The state carries `nextToken`, and
  every successful spawn takes that token and increments it. So a new process can
  never be mistaken for an earlier one, which is the object-identity comparison
  `log_monitor` relies on.
- The outside world of one operation is an `Env` value: the clock (`time.time()`
  as an integer), `os.path.exists`, and whether `subprocess.Popen` succeeds for a
  given command and working directory (a failure carries the exception text).
- Each thread is a series of atomic events. A monitor thread emits "line read"
  (`Monitor.OnLine`) and "end of stream" (`Monitor.OnEof`). An install thread emits
  `Install.Begin`, `Install.Output` and `Install.Finish`. The scheduler thread
  (`SchedulerThread`) wakes with a snapshot of the registry, then for each server
  examines it, logs the restart marker, and (once the kill has returned) detaches
  the old process and starts a new one; each of these is its own event.
  `System.Step` applies one event, and `System.Run` applies any interleaving of
  events.
- The scheduler thread holds the snapshot's entries by reference. A server
  deleted during a pass lives on in the thread as an orphan, which the thread
  still marks and tries to restart. The delete also removes the server's
  directory, so that restart fails and, as written, ends the scheduler thread
  (`System.DeleteDuringAutoRestartEndsScheduler`); only if the directory
  survived does the thread start a process for the deleted server
  (`System.DeleteDuringAutoRestart`). While the thread
  kills the old process, that process's monitor still owns the server, so its
  exit marker can land between the restart marker and the new process
  (`System.ExitMarkerDuringAutoRestart`).
- `Scheduler.TickAsWritten` is a whole pass with nothing interleaved, as the code
  does it; `Scheduler.Tick` is the same pass with the correction from Findings.
  `SchedulerThread.UninterruptedPassAsWritten` and
  `SchedulerThread.UninterruptedPassGuarded` prove that the step-by-step thread
  computes exactly these when nothing else runs during the pass.

Modules: `Common` (Option, Result, `dict.get` defaults), `Text` (`str.strip`,
`str.replace`, `os.path.join`, the slice `l[-n:]`), `Registry` (entries and the
route handlers' state effects), `Monitor`, `Install`, `Scheduler` (the interval
table, the due test and whole passes), `SchedulerThread` (the thread step by
step), `Persistence`, and `System` (events, the invariant, supersession, what is
saved).

Some behaviours of the code look unintended; the model keeps them as written:

- `status` and `process` are independent. At end of stream the monitor sets
  `status` to stopped but leaves `process` attached, and `start` tests only
  `status`.
- `stop` appends `>>> Stopped by User` even when the server was already stopped.
- A monitor appends `strip(line)` for every line it reads. A line of only
  whitespace therefore appends an empty string.
- Only the monitor truncates the log to 500 lines. Control markers, `Error:` lines
  and install output are appended without truncation, so a log can hold more than
  500 lines.
- `create` refuses an empty normalised name the same way as a taken one (`Exists`).
- A spawn failure during a scheduled restart is not logged: it ends the scheduler
  thread (see Findings). `System.Step` takes a `Mode`: `AsWritten` runs the
  thread as the code does, `Guarded` runs it with the correction. Every property
  of `System` is proved for both modes.

## Model

| member | source | states |
|---|---|---|
| `Registry.NormaliseName` | app.py:183 | the normalised name is `strip(raw)` with each space replaced by `_`, character for character; so it has no spaces and no whitespace at either end |
| `Registry.NormaliseNameIdempotent` | app.py:183 | normalising an already-normalised name changes nothing |
| `Text.StripSpec` | app.py:79 | `strip()` returns the infix of the input that has whitespace-only text on both sides and non-whitespace at both ends |
| `Text.StripUnique` | app.py:79 | only one string fits that description, so `Strip` is exactly Python's `strip()` |
| `Text.StripIdempotent` | app.py:79 | stripping twice is stripping once |
| `Text.JoinPath` | app.py:190 | `os.path.join`: an absolute second part replaces the first; otherwise the first part, then a `/` exactly when the first part is non-empty and does not already end in one, then the second |
| `Text.TakeLastConcat` | app.py:80-81 | cutting the log to its newest lines and then appending keeps the same window as appending to the full history |
| `Registry.Create` | app.py:183-206 | an empty or taken name is refused; otherwise exactly one entry is added: stopped, no process, log `["Server Created."]`, stripped command, cwd `""`, path `JoinPath(upload folder, name)`, auto-restart off, interval `1h`, start time 0; all other entries are untouched |
| `Registry.WorkDir` | app.py:123-125 | the working directory is `path/cwd` when that exists, otherwise `path` |
| `Registry.StartInternal` | app.py:116-145 | a running server is left as it is; otherwise a successful spawn attaches a token never handed out before and sets running and the start time, with logs and configuration kept; a failed spawn raises before anything changes |
| `Registry.Start` | app.py:216-244 | the start action: a no-op on a running server, a fresh process on success, and on spawn failure only an `Error: <e>` line is added |
| `Registry.Stop` | app.py:220-225 | from any state: no process, stopped, old log plus `>>> Stopped by User`, configuration and start time kept, no monitor owns the server |
| `Registry.Restart` | app.py:227-233 | the log gains `>>> Manual Restart Triggered...`; on success the server runs a process with a token newer than any before; on failure it ends stopped with no process and the error logged |
| `Registry.Delete` | app.py:235-241 | exactly that id is removed; every other entry is identical |
| `Registry.CreateThenDelete` | app.py:202-239 | deleting the server just created restores the registry exactly |
| `Registry.Recover` | app.py:243-244 | a start or restart that raised leaves the entry as it was when the start was attempted, plus one `Error: <e>` line, and nothing else changes; one that did not raise keeps its result |
| `Registry.ServerAction` | app.py:210-246 | an absent id fails with not-found before anything changes; an unknown action changes nothing; only delete changes the set of ids |
| `Registry.UpdateSettings` | app.py:343-356 | an existing entry gets the new command, cwd, interval and `auto_restart == "true"`; its path, process, status, logs and start time and all other entries are kept; an absent id changes nothing |
| `Monitor.OnLine` | app.py:74-81 | a line from the monitor that owns the server appends `strip(line)` and keeps the newest 500 lines, so the log has at most 500 lines afterwards; a monitor of an absent server or a replaced process changes nothing |
| `Monitor.OnEof` | app.py:83-88 | at end of stream the owning monitor sets stopped and appends `>>> Process Exited.`; the process stays attached; any other monitor changes nothing |
| `Monitor.FeedKeepsNewest` | app.py:74-81 | after one or more lines from the owning monitor, the log is the newest 500 of (old log followed by the stripped lines), in order (FIFO eviction) |
| `Monitor.FeedOverflowKeepsLastLines` | app.py:78-81 | once 500 or more lines have been read, the log is exactly the last 500 of them, whatever it held before |
| `Install.InstallCommand` | app.py:358-370 | a command is run only for an existing server, a non-empty package name and type `pip` or `pkg`; it is `pip install <name>` or `pkg install -y <name>` |
| `Install.InstallCommandRoundTrip` | app.py:363-367 | reading the command back gives the requested manager and package name |
| `Install.InstallCommandInjective` | app.py:363-367 | two requests that run the same command asked for the same manager and package |
| `Install.AppendIfPresent` | app.py:102-114 | install output is appended without truncation, so the log grows by exactly one line; for a deleted server nothing changes |
| `Install.Begin` | app.py:104 | the install thread first logs `>>> Installing: <command>` on the server, and does nothing for a deleted one |
| `Install.Output` | app.py:109-111 | an output line is logged stripped, exactly when the read is non-empty and the server still exists; nothing else changes |
| `Install.Finish` | app.py:112-114 | the thread's last line is `>>> Installation Finished.` or, when the command raised, `Install Error: <e>`; it is appended after everything before it |
| `Scheduler.IntervalTableMatchesLabels` | app.py:154-158 | each label in the interval table maps to the number of seconds it names (`30s` to 30, ..., `24h` to 86400) |
| `Scheduler.IntervalSeconds` | app.py:153-159 | a known label gives its table value; any other label gives 3600 |
| `Scheduler.AutoRestart` | app.py:162-168 | one scheduled restart with the correction from Findings: marker `>>> Auto-restarting server (Interval: X)...`, old process detached, new token on success, `Error: <e>` on failure; nothing else changes |
| `Scheduler.Tick` | app.py:147-168 | one pass, with the error handling from Findings; the set of ids and the token counter never go backwards |
| `Scheduler.TickRestartsExactlyDue` | app.py:151-168 | a pass restarts a server of the snapshot iff it is running, auto-restart is on and now minus its last start is at least its interval; every other server is untouched |
| `Scheduler.TickLeavesNotDue` | app.py:151-168 | a server that is outside the snapshot or was not due when the pass began comes out of the pass exactly as it went in |
| `Scheduler.TickKeepsConfig` | app.py:151-168 | a pass changes no server's configuration |
| `Scheduler.TickAsWritten` | app.py:147-168 | the pass as written over a snapshot without repeats: the thread survives it iff no due server of the snapshot fails to spawn, and then the pass equals `Tick` |
| `Scheduler.TickAsWrittenStopsAtFirstFailure` | app.py:151-168 | a pass that kills the thread stops at the first due server whose spawn fails: the servers before it are handled as `Tick` handles them, the failing one is left marked, detached and stopped with no `Error:` line, and no later server is examined |
| `Scheduler.StoppedAtLeavesLaterAlone` | app.py:151-168 | when a pass stops at a failing server, every server after it in the snapshot is exactly as it was before the pass |
| `Scheduler.SpawnFailureEndsSchedulerAsWritten` | app.py:162-168 | with two due servers whose first cannot be spawned, the pass as written kills the scheduler and leaves the second due and not restarted; the corrected pass logs the error and restarts the second |
| `SchedulerThread.Wake` | app.py:148-151 | a sleeping thread wakes only with a snapshot listing every server exactly once, and the pass records the wake time, which every due test of the pass uses; a thread inside a pass or dead ignores the wake; the registry is untouched |
| `SchedulerThread.Examine` | app.py:151-160 | the next server of the snapshot is chosen iff the entry the thread holds for it (its orphan if deleted) is running, has auto-restart on and its interval had elapsed when the pass began, and the choice carries that entry's interval; the registry, the pass time and the orphans are kept; with the snapshot exhausted the thread goes back to sleep |
| `SchedulerThread.Mark` | app.py:163 | the marker naming the interval read while examining is appended to the entry the thread holds: the registry's entry, or for a deleted server its orphan, and then the registry is untouched; nothing else changes |
| `SchedulerThread.Respawn` | app.py:164-168 | after the kill, the entry the thread holds (registry entry or orphan) becomes, on a successful spawn, running with token `nextToken` (which is then incremented) and start time now; on a failed spawn, stopped with no process and the token counter unchanged, with `Error: <e>` logged only by the guarded thread; the configuration is kept, and the thread dies iff it runs as written and the spawn fails; other entries are kept |
| `SchedulerThread.Advance` | app.py:147-168 | any step of the thread keeps the set of servers and every configuration, attaches only a token it issues, brings the pass closer to its end, and kills the thread only as written |
| `SchedulerThread.Orphan` | app.py:151-168 | a delete during a pass leaves the entry the thread still holds alive in the thread, and otherwise leaves the thread alone |
| `SchedulerThread.UninterruptedPassAsWritten` | app.py:147-168 | with nothing interleaved, the thread as written leaves the registry `TickAsWritten` computes, and sleeps again iff that pass lets the scheduler survive, dying otherwise |
| `SchedulerThread.UninterruptedPassGuarded` | app.py:147-168 | with nothing interleaved, the guarded thread leaves exactly the registry `Tick` computes and sleeps again |
| `Persistence.Save` | app.py:25-37 | the saved form has the same ids and keeps only command, cwd, path, auto-restart and interval, with status written as stopped |
| `Persistence.Restore` | app.py:46-56 | a loaded entry has no process, is stopped, has log `["Restored..."]` and start time 0; missing cwd, auto-restart and interval default to `""`, false and `1h` |
| `Persistence.Load` | app.py:39-57 | the loaded registry has exactly the saved ids, each rebuilt by `Restore` |
| `Persistence.LoadSaveRoundTrip` | app.py:25-57 | loading what was saved keeps every id and its configuration, and resets status, process, logs and start time |
| `Persistence.SaveSeesOnlyConfig` | app.py:25-35 | two registries with the same ids and configurations save identically |
| `Persistence.SaveLoadSaveStable` | app.py:25-57 | saving a reloaded registry writes the same file again |
| `System.BootInv` | app.py:39-59 | the registry loaded at start-up satisfies the invariant |
| `System.AdvanceKeepsInv` | app.py:162-168 | every step of the scheduler thread, as written or guarded, keeps the invariant |
| `System.StepKeepsInv` | app.py:116-168 | every event, including each step of the scheduler thread in either mode, keeps the invariant: attached tokens were handed out already, a running server has a process, and no process belongs to two servers |
| `System.RunKeepsInv` | app.py:116-168 | any interleaving of events keeps the invariant, for the scheduler as written and guarded |
| `System.SupersededMonitorIsInert` | app.py:70-88 | a monitor whose server is gone or whose process was replaced changes nothing, neither on a line nor at end of stream |
| `System.SupersededForever` | app.py:74-88 | once superseded, a monitor stays superseded through any interleaving, with either scheduler; so the old process's exit marker can never land after the new process has started |
| `System.ExitMarkerDuringAutoRestart` | app.py:162-168 | while the scheduler kills the old process, that process's monitor still owns the server: the log can read restart marker, then `>>> Process Exited.`, and the new process then runs |
| `System.DeleteDuringAutoRestart` | app.py:151-168 | a delete during the kill does not stop the restart: if the server's directory survived the delete's `rmtree`, the thread starts a process for the deleted server with a token no registered server holds |
| `System.DeleteDuringAutoRestartEndsScheduler` | app.py:116-168 | a delete during the kill removes the directory, so the spawn for the deleted server falls back to the missing path and fails: as written the scheduler thread dies with the registry empty; guarded, the error is logged on the orphan and the pass goes on |
| `System.DeadSchedulerStaysDead` | app.py:147-168 | once the thread has died, no event revives it and its steps change nothing |
| `System.GuardedSchedulerNeverDies` | app.py:147-168 | the guarded thread never dies |
| `System.ControlActionsSupersede` | app.py:220-239 | stop, restart and delete supersede the monitor of the process they detach |
| `System.SecondStartIsNoOp` | app.py:116-118 | of two start requests in sequence, the second finds the server the first left running and changes nothing, so they spawn at most one process |
| `System.OtherEventsKeepSnapshot` | app.py:235-240 | every event except create, settings update and delete, including every step of either scheduler, leaves the saved form unchanged, so saving only at those three points never leaves the file stale |

## Findings

| source | as written | input that shows it | evidently intended | confidence | as-written member | corrected member |
|---|---|---|---|---|---|---|
| app.py:162-168 | `auto_restarter` calls `start_server_internal` outside any `try`. A `Popen` error there escapes the `while True` loop and ends the scheduler thread. | Two servers are due in the same pass, and the first one's command cannot be spawned (e.g. its directory is gone). The first server is left stopped with no error logged. The second is never restarted (`Scheduler.SpawnFailureEndsSchedulerAsWritten`). The same happens when a server is deleted while the thread kills its old process: the delete removes the directory and the restart of the deleted server fails (`System.DeleteDuringAutoRestartEndsScheduler`). No further passes run: the dead thread's steps change nothing, whatever happens later (`System.DeadSchedulerStaysDead`). | Handle the failure as `server_action` does: log `Error: <e>` on that server and continue with the rest of the snapshot and later passes. | medium; not executed | `Scheduler.TickAsWritten` | `Scheduler.Tick` |

## Left out

- HTTP layer: request parsing, response shapes, redirects, templates, `index`, `get_logs`, `ping`, `json_alive` and `get_system_stats` (psutil floating-point percentages). Form fields are modelled as present strings; a missing field (`None`) and the exceptions it would cause are not modelled.
- File management routes (`list_files`, `upload_file`, `create_folder`, `download_file`, `delete_file`): filesystem I/O only. Also left out: the uploaded file and zip extraction in `create_server` and `os.makedirs`. In the code a create whose `os.makedirs` (app.py:191) or `file.save` (app.py:195) raises, for example for a name longer than the file system allows, adds no entry; `Registry.Create` always adds it. The `shutil.rmtree` in delete is not an effect of the model; which directories exist is part of each event's `Env`, so a removed directory shows up in what later spawns do.
- `kill_process_completely`: psutil enumeration, signals, the 3-second wait and swallowed errors are OS calls. They never touch the registry, so the model omits the kill step.
- `send_input`: a write to the child's stdin; it does not change the registry.
- Real processes and threads: `Popen`, blocking `readline` and daemon threads are not modelled. Each thread step is one atomic event. A real monitor delivers its lines and then exactly one end of stream; the model allows any sequence of monitor events.
- Preemption inside a scheduler step: the scheduler is split where other threads can change its effect (after the snapshot, after the due test, after the marker and during the kill). It is not split inside `start_server_internal`: a start request that runs between its status test and the assignment of the new process, which could spawn a second process, is not modelled. Nor is the window between the due test and reading the interval.
- Route handlers racing each other: Flask runs with `threaded=True` (app.py:385), so two requests can run at once. Each route handler is one atomic event here. The races this leaves out include two concurrent start or restart requests that both pass the status test and spawn two processes, and a stop that runs while a start is inside `Popen` and is then overwritten by the start's assignment.
- Snapshot order: a pass may visit the servers in any order, which includes the dictionary's insertion order that Python uses.
- JSON reading and writing, and the bare `except: pass` in `load_servers` (a malformed record can leave a partial load). A `save_servers` I/O error after a registry change is also left out.
- Time: `time.time()` is an integer `now`, and the 5-second sleep between passes is not modelled. The thread tests elapsed time against the `now` it read on waking and takes the new start time from the clock of the restart step. The whole-pass functions `Scheduler.Tick` and `Scheduler.TickAsWritten` use one `now` for both.
- Path resolution: `os.path.join` is modelled lexically. What a name such as `..` or `/x` resolves to on disk is not modelled.
- Unicode: `strip()` removes exactly the characters Python's `str.isspace()` accepts (listed in `Text.IsSpace`). No normalisation or case folding takes place.
- Processes left running by an earlier run of the program are neither detected nor reaped after a reload. The model starts from `Persistence.Boot` with no process attached.

=== FILE: common.dfy ===
/** Small failure-carrying datatypes shared by the other modules. */
module Common {

  /** A value that may be absent (Python's `None`, or a missing dictionary key). */
  datatype Option<+T> = None | Some(value: T)

  /** Python's `d.get(key, default)` once the lookup has produced `o`. */
  function GetOr<T>(o: Option<T>, default: T): (v: T)
    ensures o.Some? ==> v == o.value
    ensures o.None? ==> v == default
  {
    match o
    case Some(x) => x
    case None => default
  }

  /** The outcome of an operation that may fail with an error value. */
  datatype Result<+T, +E> = Success(value: T) | Failure(error: E)
}

=== FILE: install.dfy ===
/** `install_pkg` and the `run_install_command` thread it starts. The thread's log
    lines are plain appends: unlike the monitor's, they are never truncated. */
module Install {
  import opened Common
  import opened Text
  import opened Registry

  /** The command `install_pkg` runs, if any: `pip` and `pkg` are the only package
      managers, and an unknown server or an empty package name runs nothing. */
  function InstallCommand(s: State, id: string, pkgType: string, pkgName: string)
    : (r: Option<string>)
    ensures r.Some? <==> id in s.servers && pkgName != "" && pkgType in {"pip", "pkg"}
    ensures r.Some? ==> |r.value| > |pkgName| && r.value[|r.value| - |pkgName|..] == pkgName
    ensures r.Some? && pkgType == "pip" ==> r.value == "pip install " + pkgName
    ensures r.Some? && pkgType == "pkg" ==> r.value == "pkg install -y " + pkgName
  {
    if id !in s.servers || pkgName == "" then None
    else if pkgType == "pip" then Some(PipPrefix + pkgName)
    else if pkgType == "pkg" then Some(PkgPrefix + pkgName)
    else None
  }

  const PipPrefix := "pip install "
  const PkgPrefix := "pkg install -y "

  /** Reads a command back as the package manager and the package it installs. */
  function ParseInstallCommand(cmd: string): (r: Option<(string, string)>)
    ensures r.Some? ==> r.value.0 in {"pip", "pkg"} && r.value.1 != ""
    ensures r.Some? ==> |r.value.1| < |cmd| && cmd[|cmd| - |r.value.1|..] == r.value.1
  {
    if |cmd| > |PipPrefix| && cmd[..|PipPrefix|] == PipPrefix then Some(("pip", cmd[|PipPrefix|..]))
    else if |cmd| > |PkgPrefix| && cmd[..|PkgPrefix|] == PkgPrefix then Some(("pkg", cmd[|PkgPrefix|..]))
    else None
  }

  /** The command names exactly the manager and the package that were asked for:
      reading it back gives them again. */
  lemma InstallCommandRoundTrip(s: State, id: string, pkgType: string, pkgName: string)
    ensures InstallCommand(s, id, pkgType, pkgName).Some? ==>
      ParseInstallCommand(InstallCommand(s, id, pkgType, pkgName).value) == Some((pkgType, pkgName))
  {
    var r := InstallCommand(s, id, pkgType, pkgName);
    if r.Some? {
      if pkgType == "pip" {
        assert r.value[..|PipPrefix|] == PipPrefix && r.value[|PipPrefix|..] == pkgName;
      } else {
        assert r.value[..|PipPrefix|] != PipPrefix by { assert r.value[1] != PipPrefix[1]; }
        assert r.value[..|PkgPrefix|] == PkgPrefix && r.value[|PkgPrefix|..] == pkgName;
      }
    }
  }

  /** Two requests that run the same command asked for the same manager and the
      same package. */
  lemma InstallCommandInjective(s: State, id: string, t1: string, n1: string, t2: string, n2: string)
    requires InstallCommand(s, id, t1, n1).Some? && InstallCommand(s, id, t1, n1) == InstallCommand(s, id, t2, n2)
    ensures t1 == t2 && n1 == n2
  {
    InstallCommandRoundTrip(s, id, t1, n1);
    InstallCommandRoundTrip(s, id, t2, n2);
  }

  /** Append one line if the server still exists; an append to a deleted server
      raises inside the thread and changes nothing. */
  function AppendIfPresent(s: State, id: string, line: string): (r: State)
    ensures id !in s.servers ==> r == s
    ensures id in s.servers ==>
      && OthersUnchanged(s, r, id) && r.nextToken == s.nextToken
      && r.servers[id] == s.servers[id].(logs := s.servers[id].logs + [line])
      && |r.servers[id].logs| == |s.servers[id].logs| + 1
  {
    if id in s.servers then AppendLog(s, id, line) else s
  }

  /** The thread announces the command on the server, if it still exists. */
  function Begin(s: State, id: string, command: string): (r: State)
    ensures id !in s.servers ==> r == s
    ensures id in s.servers ==>
      && OthersUnchanged(s, r, id) && r.nextToken == s.nextToken
      && r.servers[id] == s.servers[id].(logs := s.servers[id].logs + [">>> Installing: " + command])
  {
    AppendIfPresent(s, id, ">>> Installing: " + command)
  }

  /** The thread copies one output line of the command, stripped; an empty read
      is skipped. */
  function Output(s: State, id: string, line: string): (r: State)
    ensures line == "" || id !in s.servers ==> r == s
    ensures line != "" && id in s.servers ==>
      && OthersUnchanged(s, r, id) && r.nextToken == s.nextToken
      && r.servers[id] == s.servers[id].(logs := s.servers[id].logs + [Strip(line)])
  {
    if line == "" then s else AppendIfPresent(s, id, Strip(line))
  }

  /** The thread finishes: `failure` is the exception it caught, if any. The
      closing line is the success banner or `Install Error: <reason>`. */
  function Finish(s: State, id: string, failure: Option<string>): (r: State)
    ensures id !in s.servers ==> r == s
    ensures id in s.servers ==>
      && OthersUnchanged(s, r, id) && r.nextToken == s.nextToken
      && |r.servers[id].logs| == |s.servers[id].logs| + 1
      && r.servers[id] == s.servers[id].(logs := r.servers[id].logs)
      && r.servers[id].logs[..|s.servers[id].logs|] == s.servers[id].logs
      && (failure.None? ==> r.servers[id].logs[|s.servers[id].logs|] == ">>> Installation Finished.")
      && (failure.Some? ==> r.servers[id].logs[|s.servers[id].logs|] == "Install Error: " + failure.value)
  {
    match failure
    case None => AppendIfPresent(s, id, ">>> Installation Finished.")
    case Some(reason) => AppendIfPresent(s, id, "Install Error: " + reason)
  }
}

=== FILE: monitor.dfy ===
/** `log_monitor`: the thread that copies one process's output into its server's
    log. Each iteration of its loop is one event here, `OnLine` for a line and
    `OnEof` for the end of the stream; the environment interleaves these events
    freely with the control operations. Both events first check that the server
    still exists and that its attached process is still the one being monitored;
    a failed check ends the thread without touching the registry. */
module Monitor {
  import opened Text
  import opened Registry

  /** Monitor appends keep at most this many log lines. */
  const MaxLogLines: nat := 500

  const ExitMarker := ">>> Process Exited."

  /** The monitor of process `tok` of server `id` reads `line` (as returned by
      `readline`, so non-empty before end of stream). */
  function OnLine(s: State, id: string, tok: Token, line: string): (r: State)
    ensures !IsCurrent(s, id, tok) || line == "" ==> r == s
    ensures IsCurrent(s, id, tok) && line != "" ==>
      && OthersUnchanged(s, r, id) && r.nextToken == s.nextToken
      && r.servers[id] == s.servers[id].(logs := r.servers[id].logs)
      && r.servers[id].logs == TakeLast(s.servers[id].logs + [Strip(line)], MaxLogLines)
      && |r.servers[id].logs| <= MaxLogLines
  {
    if !IsCurrent(s, id, tok) || line == "" then s
    else
      var e := s.servers[id];
      var logs := e.logs + [Strip(line)];
      var kept := if |logs| > MaxLogLines then logs[|logs| - MaxLogLines..] else logs;
      s.(servers := s.servers[id := e.(logs := kept)])
  }

  /** The monitor of process `tok` of server `id` reaches the end of the stream:
      if it still owns the server, the server is marked stopped and the exit is
      logged; the process stays attached. */
  function OnEof(s: State, id: string, tok: Token): (r: State)
    ensures !IsCurrent(s, id, tok) ==> r == s
    ensures IsCurrent(s, id, tok) ==>
      && OthersUnchanged(s, r, id) && r.nextToken == s.nextToken
      && IsCurrent(r, id, tok)
      && r.servers[id].status == Stopped
      && r.servers[id].logs == s.servers[id].logs + [ExitMarker]
      && SameConfig(r.servers[id], s.servers[id])
      && r.servers[id].lastStartTime == s.servers[id].lastStartTime
  {
    if !IsCurrent(s, id, tok) then s
    else
      var e := s.servers[id];
      s.(servers := s.servers[id := e.(status := Stopped, logs := e.logs + [ExitMarker])])
  }

  /** The lines as they land in the log. */
  function StripAll(lines: seq<string>): (r: seq<string>)
    ensures |r| == |lines|
  {
    if |lines| == 0 then [] else [Strip(lines[0])] + StripAll(lines[1..])
  }

  /** What `readline` returns before the end of the stream is never empty. */
  predicate NoEmptyLine(lines: seq<string>) {
    forall k :: 0 <= k < |lines| ==> lines[k] != ""
  }

  /** The monitor of `tok` reads `lines` one after another. */
  function Feed(s: State, id: string, tok: Token, lines: seq<string>): State
    decreases |lines|
  {
    if |lines| == 0 then s else Feed(OnLine(s, id, tok, lines[0]), id, tok, lines[1..])
  }

  /** FIFO eviction: once the current monitor has appended at least one line, the
      log is the newest `MaxLogLines` lines of the earlier log followed by the
      stripped new lines, in order. */
  lemma {:induction false} FeedKeepsNewest(s: State, id: string, tok: Token, lines: seq<string>)
    requires IsCurrent(s, id, tok)
    requires |lines| > 0
    requires NoEmptyLine(lines)
    ensures IsCurrent(Feed(s, id, tok, lines), id, tok)
    ensures Feed(s, id, tok, lines).servers[id].logs
         == TakeLast(s.servers[id].logs + StripAll(lines), MaxLogLines)
    decreases |lines|
  {
    var prior := s.servers[id].logs;
    var x := Strip(lines[0]);
    var s1 := OnLine(s, id, tok, lines[0]);
    assert s1.servers[id].logs == TakeLast(prior + [x], MaxLogLines);
    assert Feed(s, id, tok, lines) == Feed(s1, id, tok, lines[1..]);
    if |lines| == 1 {
      assert Feed(s1, id, tok, lines[1..]) == s1;
      assert StripAll(lines) == [x];
    } else {
      var rest := lines[1..];
      assert forall k :: 0 <= k < |rest| ==> rest[k] == lines[k + 1];
      FeedKeepsNewest(s1, id, tok, rest);
      var r := Feed(s1, id, tok, rest);
      assert r.servers[id].logs == TakeLast(TakeLast(prior + [x], MaxLogLines) + StripAll(rest), MaxLogLines);
      TakeLastConcat(prior + [x], StripAll(rest), MaxLogLines);
      assert StripAll(lines) == [x] + StripAll(rest);
      AppendAssoc(prior, x, StripAll(rest));
    }
  }

  /** The 600-lines case: once 500 or more lines have been read by the current
      monitor, the log holds exactly the last 500 of them, whatever it held before. */
  lemma FeedOverflowKeepsLastLines(s: State, id: string, tok: Token, lines: seq<string>)
    requires IsCurrent(s, id, tok)
    requires |lines| >= MaxLogLines
    requires NoEmptyLine(lines)
    ensures IsCurrent(Feed(s, id, tok, lines), id, tok)
    ensures Feed(s, id, tok, lines).servers[id].logs == StripAll(lines)[|lines| - MaxLogLines..]
  {
    FeedKeepsNewest(s, id, tok, lines);
    var logs := Feed(s, id, tok, lines).servers[id].logs;
    WindowOfLongTail(s.servers[id].logs, StripAll(lines), logs);
  }

  /** A window of the newest lines taken after at least `MaxLogLines` new ones holds
      only new lines. */
  lemma WindowOfLongTail(prior: seq<string>, newest: seq<string>, logs: seq<string>)
    requires |newest| >= MaxLogLines
    requires logs == TakeLast(prior + newest, MaxLogLines)
    ensures logs == newest[|newest| - MaxLogLines..]
  {
    TakeLastOfLongTail(prior, newest, MaxLogLines);
  }
}

=== FILE: persistence.dfy ===
/** `save_servers` and `load_servers`: the registry's on-disk form keeps only the
    configuration of each server. Reading and writing the JSON file are left out;
    a saved record is a value, and a field that an older file may lack is an
    `Option`, filled in on load with the same defaults the code uses. */
module Persistence {
  import opened Common
  import opened Registry

  /** One server as `servers_db.json` holds it. */
  datatype Saved = Saved(
    cmd: string,
    cwd: Option<string>,
    path: string,
    autoRestart: Option<bool>,
    restartInterval: Option<string>,
    status: Status)

  const RestoredMarker := "Restored..."

  /** `save_servers`: configuration only, with the status always written as stopped. */
  function Save(servers: map<string, Entry>): (db: map<string, Saved>)
    ensures db.Keys == servers.Keys
    ensures forall id :: id in db ==>
      && db[id].status == Stopped
      && db[id].cmd == servers[id].cmd
      && db[id].cwd == Some(servers[id].cwd)
      && db[id].path == servers[id].path
      && db[id].autoRestart == Some(servers[id].autoRestart)
      && db[id].restartInterval == Some(servers[id].restartInterval)
  {
    map id | id in servers ::
      var e := servers[id];
      Saved(e.cmd, Some(e.cwd), e.path, Some(e.autoRestart), Some(e.restartInterval), Stopped)
  }

  /** One entry rebuilt by `load_servers`: no process, stopped, a one-line log and
      a zero start time, whatever the record says about its status. */
  function Restore(rec: Saved): (e: Entry)
    ensures e.process == None && e.status == Stopped
    ensures e.logs == [RestoredMarker] && e.lastStartTime == 0
    ensures e.cmd == rec.cmd && e.path == rec.path
    ensures e.cwd == GetOr(rec.cwd, "")
    ensures e.autoRestart == GetOr(rec.autoRestart, false)
    ensures e.restartInterval == GetOr(rec.restartInterval, DefaultInterval)
  {
    Entry(None, Stopped, rec.cmd, GetOr(rec.cwd, ""), rec.path,
          GetOr(rec.autoRestart, false), GetOr(rec.restartInterval, DefaultInterval),
          [RestoredMarker], 0)
  }

  /** `load_servers` into the empty registry of a fresh start. */
  function Load(db: map<string, Saved>): (servers: map<string, Entry>)
    ensures servers.Keys == db.Keys
    ensures forall id :: id in servers ==> servers[id] == Restore(db[id])
  {
    map id | id in db :: Restore(db[id])
  }

  /** The state a fresh start of the program begins in. */
  function Boot(db: map<string, Saved>): State {
    State(Load(db), 0)
  }

  /** Saving and loading keeps every server and its configuration, and resets the
      runtime fields: no process, stopped, `Restored...` as the whole log, start
      time zero. */
  lemma LoadSaveRoundTrip(servers: map<string, Entry>)
    ensures Load(Save(servers)).Keys == servers.Keys
    ensures forall id :: id in servers ==>
      var e := Load(Save(servers))[id];
      && SameConfig(e, servers[id])
      && e.process == None && e.status == Stopped
      && e.logs == [RestoredMarker] && e.lastStartTime == 0
  {
  }

  /** What is saved depends on the configuration alone: two registries with the
      same servers and the same configuration save identically, whatever their
      processes, statuses, logs and start times. */
  lemma SaveSeesOnlyConfig(a: map<string, Entry>, b: map<string, Entry>)
    requires a.Keys == b.Keys
    requires forall id :: id in a ==> SameConfig(a[id], b[id])
    ensures Save(a) == Save(b)
  {
    assert forall id :: id in a ==> Save(a)[id] == Save(b)[id];
  }

  /** Reloading a saved registry and saving it again writes the same file. */
  lemma SaveLoadSaveStable(servers: map<string, Entry>)
    ensures Save(Load(Save(servers))) == Save(servers)
  {
    LoadSaveRoundTrip(servers);
    SaveSeesOnlyConfig(Load(Save(servers)), servers);
  }
}

=== FILE: registry.dfy ===
/** The in-memory server registry (`SERVERS` in app.py) and the control operations
    that the dashboard routes perform on it: create, start, stop, restart, delete
    and the settings update.

    A `Popen` object is represented by an opaque `Token`; `State.nextToken` is the
    token the next successful spawn receives, so every spawn yields a token that was
    never handed out before. The operating system is reached only through `Env`:
    the clock, `os.path.exists` and the outcome of `subprocess.Popen` are its
    fields. */
module Registry {
  import opened Common
  import opened Text

  /** Stands for one `subprocess.Popen` object; compared by identity only. */
  type Token = nat

  datatype Status = Running | Stopped

  /** One value of `SERVERS`, field for field. */
  datatype Entry = Entry(
    process: Option<Token>,
    status: Status,
    cmd: string,
    cwd: string,
    path: string,
    autoRestart: bool,
    restartInterval: string,
    logs: seq<string>,
    lastStartTime: int)

  /** The registry keyed by server id, plus the source of fresh process tokens. */
  datatype State = State(servers: map<string, Entry>, nextToken: nat)

  /** What `start_server_internal` hands to `subprocess.Popen`. */
  datatype SpawnRequest = SpawnRequest(cmd: string, workDir: string)

  datatype SpawnResult = Spawned | SpawnFailed(reason: string)

  /** The outside world as seen by one operation: `time.time()`, `os.path.exists`
      and whether `subprocess.Popen` succeeds for a given request. */
  datatype Env = Env(now: int, dirExists: string -> bool, spawn: SpawnRequest -> SpawnResult)

  const CreatedMarker := "Server Created."
  const StopMarker := ">>> Stopped by User"
  const RestartMarker := ">>> Manual Restart Triggered..."
  const DefaultInterval := "1h"

  /** The line `server_action` logs when an action raises. */
  function ErrorLine(reason: string): string {
    "Error: " + reason
  }

  /** The fields that persistence keeps and the settings form edits. */
  predicate SameConfig(a: Entry, b: Entry) {
    && a.cmd == b.cmd
    && a.cwd == b.cwd
    && a.path == b.path
    && a.autoRestart == b.autoRestart
    && a.restartInterval == b.restartInterval
  }

  /** The monitor started for process `tok` of server `id` still owns that server. */
  predicate IsCurrent(s: State, id: string, tok: Token) {
    id in s.servers && s.servers[id].process == Some(tok)
  }

  /** `r` differs from `s` at most in the entry for `id`. */
  ghost predicate OthersUnchanged(s: State, r: State, id: string) {
    && r.servers.Keys == s.servers.Keys
    && forall o :: o in s.servers && o != id ==> r.servers[o] == s.servers[o]
  }

  /** The entry of `id` gains one log line and nothing else changes. */
  function AppendLog(s: State, id: string, line: string): (r: State)
    requires id in s.servers
    ensures OthersUnchanged(s, r, id) && r.nextToken == s.nextToken
    ensures r.servers[id].logs == s.servers[id].logs + [line]
    ensures r.servers[id] == s.servers[id].(logs := r.servers[id].logs)
  {
    var e := s.servers[id];
    s.(servers := s.servers[id := e.(logs := e.logs + [line])])
  }

  // ---------------------------------------------------------------- create

  /** `create_server`'s name normalisation: `strip()`, then spaces become `_`. */
  function NormaliseName(raw: string): (name: string)
    ensures |name| == |Strip(raw)|
    ensures forall k :: 0 <= k < |name| ==>
      name[k] == (if Strip(raw)[k] == ' ' then '_' else Strip(raw)[k])
    ensures forall k :: 0 <= k < |name| ==> name[k] != ' '
    ensures NoEdgeSpace(name)
  {
    StripSpec(raw);
    ReplaceChar(Strip(raw), ' ', '_')
  }

  /** A normalised name is its own normal form. */
  lemma NormaliseNameIdempotent(raw: string)
    ensures NormaliseName(NormaliseName(raw)) == NormaliseName(raw)
  {
    var n := NormaliseName(raw);
    assert n[0..0 + |n|] == n && n[..0] == [] && n[0 + |n|..] == [];
    StripUnique(n, n, 0);
    assert ReplaceChar(n, ' ', '_') == n;
  }

  datatype CreateError = Exists

  /** `create_server`: an empty or taken name is refused; otherwise one fresh,
      stopped entry is added under the normalised name. */
  function Create(s: State, rawName: string, rawCmd: string, uploadFolder: string)
    : (r: Result<State, CreateError>)
    ensures r.Failure? <==> NormaliseName(rawName) == "" || NormaliseName(rawName) in s.servers
    ensures r.Success? ==>
      var name := NormaliseName(rawName);
      && name in r.value.servers
      && var e := r.value.servers[name];
      && r.value.servers.Keys == s.servers.Keys + {name}
      && r.value.nextToken == s.nextToken
      && (forall o :: o in s.servers ==> o in r.value.servers && r.value.servers[o] == s.servers[o])
      && e.process == None && e.status == Stopped
      && e.logs == [CreatedMarker]
      && e.cmd == Strip(rawCmd) && e.cwd == ""
      && e.path == JoinPath(uploadFolder, name)
      && !e.autoRestart && e.restartInterval == DefaultInterval
      && e.lastStartTime == 0
  {
    var name := NormaliseName(rawName);
    if name == "" || name in s.servers then Failure(Exists)
    else
      var e := Entry(None, Stopped, Strip(rawCmd), "", JoinPath(uploadFolder, name),
                     false, DefaultInterval, [CreatedMarker], 0);
      Success(s.(servers := s.servers[name := e]))
  }

  // ---------------------------------------------------------------- start

  /** The working directory `start_server_internal` passes to `Popen`: `path/cwd`
      if that exists, `path` otherwise. */
  function WorkDir(path: string, cwd: string, dirExists: string -> bool): (d: string)
    ensures d == path || (d == JoinPath(path, cwd) && dirExists(d))
    ensures dirExists(JoinPath(path, cwd)) ==> d == JoinPath(path, cwd)
  {
    var joined := JoinPath(path, cwd);
    if dirExists(joined) then joined else path
  }

  /** What `Popen` does when asked to run `e`'s command. */
  function SpawnOutcome(e: Entry, env: Env): SpawnResult {
    env.spawn(SpawnRequest(e.cmd, WorkDir(e.path, e.cwd, env.dirExists)))
  }

  /** `start_server_internal`: a running server is left alone; otherwise a new
      process is attached. A `Popen` failure is the exception it raises, with the
      registry not yet touched. */
  function StartInternal(s: State, id: string, env: Env): (r: Result<State, string>)
    requires id in s.servers
    ensures s.servers[id].status == Running ==> r == Success(s)
    ensures s.servers[id].status == Stopped ==>
      match SpawnOutcome(s.servers[id], env)
      case SpawnFailed(reason) => r == Failure(reason)
      case Spawned =>
        && r.Success?
        && OthersUnchanged(s, r.value, id)
        && var e, n := s.servers[id], r.value.servers[id];
        && n.status == Running
        && n.process.Some? && s.nextToken <= n.process.value < r.value.nextToken
        && n.lastStartTime == env.now
        && n.logs == e.logs && SameConfig(n, e)
  {
    var e := s.servers[id];
    if e.status == Running then Success(s)
    else
      match SpawnOutcome(e, env)
      case SpawnFailed(reason) => Failure(reason)
      case Spawned =>
        var n := e.(process := Some(s.nextToken), status := Running, lastStartTime := env.now);
        Success(State(s.servers[id := n], s.nextToken + 1))
  }

  /** `server_action`'s `except` clause: a raised start is logged on the entry. */
  function Recover(s: State, id: string, res: Result<State, string>): (r: State)
    requires id in s.servers
    ensures res.Success? ==> r == res.value
    ensures res.Failure? ==>
      && OthersUnchanged(s, r, id) && r.nextToken == s.nextToken
      && r.servers[id] == s.servers[id].(logs := s.servers[id].logs + [ErrorLine(res.error)])
  {
    match res
    case Success(t) => t
    case Failure(reason) => AppendLog(s, id, ErrorLine(reason))
  }

  /** The `start` action. */
  function Start(s: State, id: string, env: Env): (r: State)
    requires id in s.servers
    ensures OthersUnchanged(s, r, id)
    ensures s.servers[id].status == Running ==> r == s
    ensures s.servers[id].status == Stopped ==>
      var e, n := s.servers[id], r.servers[id];
      match SpawnOutcome(e, env)
      case SpawnFailed(reason) =>
        n == e.(logs := e.logs + [ErrorLine(reason)]) && r.nextToken == s.nextToken
      case Spawned =>
        && n.status == Running
        && n.process.Some? && s.nextToken <= n.process.value < r.nextToken
        && n.lastStartTime == env.now
        && n.logs == e.logs && SameConfig(n, e)
  {
    Recover(s, id, StartInternal(s, id, env))
  }

  // ---------------------------------------------------------------- stop / restart

  /** Kill-and-detach as `stop`, `restart` and the scheduler do it: no process,
      status stopped, one marker line. Killing the process tree has no effect on
      the registry. */
  function Detach(e: Entry, marker: string): (d: Entry)
    ensures d.process == None && d.status == Stopped
    ensures d.logs == e.logs + [marker]
    ensures SameConfig(d, e) && d.lastStartTime == e.lastStartTime
  {
    e.(process := None, status := Stopped, logs := e.logs + [marker])
  }

  /** The `stop` action: whatever the previous state, the server ends detached and
      stopped with the stop marker logged (even if it was already stopped). */
  function Stop(s: State, id: string): (r: State)
    requires id in s.servers
    ensures OthersUnchanged(s, r, id) && r.nextToken == s.nextToken
    ensures r.servers[id].process == None && r.servers[id].status == Stopped
    ensures r.servers[id].logs == s.servers[id].logs + [StopMarker]
    ensures SameConfig(r.servers[id], s.servers[id])
    ensures r.servers[id].lastStartTime == s.servers[id].lastStartTime
    ensures forall tok :: !IsCurrent(r, id, tok)
  {
    s.(servers := s.servers[id := Detach(s.servers[id], StopMarker)])
  }

  /** The `restart` action: detach with the restart marker, then start; a failed
      spawn is logged and leaves the server stopped. Either way the old process
      no longer owns the entry. */
  function Restart(s: State, id: string, env: Env): (r: State)
    requires id in s.servers
    ensures OthersUnchanged(s, r, id)
    ensures SameConfig(r.servers[id], s.servers[id])
    ensures
      var e, n := s.servers[id], r.servers[id];
      match SpawnOutcome(e, env)
      case SpawnFailed(reason) =>
        && n.process == None && n.status == Stopped
        && n.logs == e.logs + [RestartMarker, ErrorLine(reason)]
        && n.lastStartTime == e.lastStartTime
        && r.nextToken == s.nextToken
      case Spawned =>
        && n.status == Running
        && n.process.Some? && s.nextToken <= n.process.value < r.nextToken
        && n.lastStartTime == env.now
        && n.logs == e.logs + [RestartMarker]
  {
    var e := s.servers[id];
    var s1 := s.(servers := s.servers[id := Detach(e, RestartMarker)]);
    assert SpawnOutcome(s1.servers[id], env) == SpawnOutcome(e, env);
    Recover(s1, id, StartInternal(s1, id, env))
  }

  // ---------------------------------------------------------------- delete

  /** The `delete` action: the entry is removed (the process tree kill and the
      best-effort directory removal do not touch the registry). */
  function Delete(s: State, id: string): (r: State)
    requires id in s.servers
    ensures r.servers.Keys == s.servers.Keys - {id}
    ensures forall o :: o in r.servers ==> r.servers[o] == s.servers[o]
    ensures r.nextToken == s.nextToken
  {
    s.(servers := s.servers - {id})
  }

  /** Deleting the server just created gives back the registry as it was. */
  lemma CreateThenDelete(s: State, rawName: string, rawCmd: string, uploadFolder: string)
    requires Create(s, rawName, rawCmd, uploadFolder).Success?
    ensures Delete(Create(s, rawName, rawCmd, uploadFolder).value, NormaliseName(rawName)) == s
  {
    var name := NormaliseName(rawName);
    var r := Delete(Create(s, rawName, rawCmd, uploadFolder).value, name);
    assert r.servers == s.servers;
  }

  // ---------------------------------------------------------------- dispatch

  datatype ActionError = NotFound

  /** `server_action`: an unknown id is refused before anything happens; an
      unknown action name does nothing. */
  function ServerAction(s: State, id: string, action: string, env: Env)
    : (r: Result<State, ActionError>)
    ensures r.Failure? <==> id !in s.servers
    ensures r.Failure? ==> r.error == NotFound
    ensures id in s.servers && action !in {"start", "stop", "restart", "delete"} ==> r == Success(s)
    ensures r.Success? ==> r.value.nextToken >= s.nextToken
    ensures r.Success? ==>
      r.value.servers.Keys == if action == "delete" then s.servers.Keys - {id} else s.servers.Keys
  {
    if id !in s.servers then Failure(NotFound)
    else if action == "start" then Success(Start(s, id, env))
    else if action == "stop" then Success(Stop(s, id))
    else if action == "restart" then Success(Restart(s, id, env))
    else if action == "delete" then Success(Delete(s, id))
    else Success(s)
  }

  // ---------------------------------------------------------------- settings

  /** `update_settings`: a pure configuration change of an existing server; the
      running process, status, logs and start time are left alone. An unknown id
      is ignored. */
  function UpdateSettings(s: State, id: string, cmd: string, cwd: string,
                          autoRestartField: string, interval: string): (r: State)
    ensures id !in s.servers ==> r == s
    ensures id in s.servers ==>
      && OthersUnchanged(s, r, id) && r.nextToken == s.nextToken
      && var e, n := s.servers[id], r.servers[id];
      && n.cmd == cmd && n.cwd == cwd && n.restartInterval == interval
      && (n.autoRestart <==> autoRestartField == "true")
      && n.path == e.path
      && n.process == e.process && n.status == e.status
      && n.logs == e.logs && n.lastStartTime == e.lastStartTime
  {
    if id !in s.servers then s
    else
      var e := s.servers[id];
      var n := e.(cmd := cmd, cwd := cwd, autoRestart := autoRestartField == "true",
                  restartInterval := interval);
      s.(servers := s.servers[id := n])
  }
}

=== FILE: scheduler.dfy ===
/** `auto_restarter`: every few seconds it walks a snapshot of the registry and
    restarts each running, auto-restart-enabled server whose interval has elapsed
    since its last start. One pass over the snapshot is one tick here; `ids` is
    the snapshot's order (the dict's insertion order).

    Two versions of the pass are modelled. `TickAsWritten` is the loop as it
    stands: it has no `try`, so a `Popen` failure while restarting one server
    propagates out of the thread, ending this pass and every later one. `Tick`
    handles that failure the way `server_action` does (log `Error: <e>` on the
    server and go on). These are whole-pass reference definitions: the system
    runs the thread step by step (`SchedulerThread`) in either mode, and a pass
    with nothing interleaved is shown to leave what `TickAsWritten` or `Tick`
    computes. */
module Scheduler {
  import opened Common
  import opened Registry

  /** `interval_map`: restart interval labels and their length in seconds. */
  const IntervalTable: map<string, nat> := map[
    "30s" := 30, "1m" := 60, "5m" := 300, "10m" := 600, "30m" := 1800,
    "1h" := 3600, "2h" := 7200, "3h" := 10800,
    "6h" := 21600, "12h" := 43200, "24h" := 86400]

  /** The length used for a label the table does not know. */
  const FallbackSeconds: nat := 3600

  /** Decimal value of a string of digits. */
  function DigitsValue(digits: string): nat
    requires forall k :: 0 <= k < |digits| ==> '0' <= digits[k] <= '9'
  {
    if |digits| == 0 then 0
    else 10 * DigitsValue(digits[..|digits| - 1]) + (digits[|digits| - 1] - '0') as nat
  }

  /** What a label such as `12h` says in words: a decimal count followed by one of
      the units `s`, `m` or `h`. This reading is independent of the table. */
  function ParseDuration(interval: string): Option<nat> {
    if |interval| < 2 then None
    else
      var digits, unit := interval[..|interval| - 1], interval[|interval| - 1];
      if !(forall k :: 0 <= k < |digits| ==> '0' <= digits[k] <= '9') then None
      else if unit == 's' then Some(DigitsValue(digits))
      else if unit == 'm' then Some(60 * DigitsValue(digits))
      else if unit == 'h' then Some(3600 * DigitsValue(digits))
      else None
  }

  /** A label of one or two digits and a unit reads as `seconds`. */
  lemma LabelValue(interval: string, seconds: nat)
    requires 2 <= |interval| <= 3
    requires forall k :: 0 <= k < |interval| - 1 ==> '0' <= interval[k] <= '9'
    requires interval[|interval| - 1] in {'s', 'm', 'h'}
    requires
      var digits := interval[..|interval| - 1];
      var count := if |digits| == 1 then (digits[0] - '0') as nat
                   else 10 * (digits[0] - '0') as nat + (digits[1] - '0') as nat;
      var unit := interval[|interval| - 1];
      seconds == count * (if unit == 's' then 1 else if unit == 'm' then 60 else 3600)
    ensures ParseDuration(interval) == Some(seconds)
  {
    var digits := interval[..|interval| - 1];
    var first := digits[..1];
    assert first[..0] == [];
    assert DigitsValue(first) == (digits[0] - '0') as nat;
    if |digits| == 2 {
      assert digits[..|digits| - 1] == first;
      assert DigitsValue(digits) == 10 * (digits[0] - '0') as nat + (digits[1] - '0') as nat;
    } else {
      assert digits == first;
    }
  }

  /** Every entry of the table is what its label says. */
  lemma IntervalTableMatchesLabels()
    ensures forall interval :: interval in IntervalTable ==> ParseDuration(interval) == Some(IntervalTable[interval])
  {
    ShortLabels();
    HourLabels();
    LongLabels();
  }

  lemma ShortLabels()
    ensures ParseDuration("30s") == Some(30) && ParseDuration("1m") == Some(60)
    ensures ParseDuration("5m") == Some(300) && ParseDuration("10m") == Some(600)
    ensures ParseDuration("30m") == Some(1800)
  {
    LabelValue("30s", 30);
    LabelValue("1m", 60);
    LabelValue("5m", 300);
    LabelValue("10m", 600);
    LabelValue("30m", 1800);
  }

  lemma HourLabels()
    ensures ParseDuration("1h") == Some(3600) && ParseDuration("2h") == Some(7200)
    ensures ParseDuration("3h") == Some(10800)
  {
    LabelValue("1h", 3600);
    LabelValue("2h", 7200);
    LabelValue("3h", 10800);
  }

  lemma LongLabels()
    ensures ParseDuration("6h") == Some(21600) && ParseDuration("12h") == Some(43200)
    ensures ParseDuration("24h") == Some(86400)
  {
    LabelValue("6h", 21600);
    LabelValue("12h", 43200);
    LabelValue("24h", 86400);
  }

  /** `interval_map.get(interval_str, 3600)`. */
  function IntervalSeconds(interval: string): (n: nat)
    ensures interval in IntervalTable ==> ParseDuration(interval) == Some(n)
    ensures interval !in IntervalTable ==> n == FallbackSeconds
    ensures 30 <= n <= 86400
  {
    IntervalTableMatchesLabels();
    if interval in IntervalTable then IntervalTable[interval] else FallbackSeconds
  }

  /** No id occurs twice. */
  predicate Distinct(ids: seq<string>) {
    forall i, j :: 0 <= i < j < |ids| ==> ids[i] != ids[j]
  }

  lemma DistinctTail(ids: seq<string>)
    requires |ids| > 0 && Distinct(ids)
    ensures Distinct(ids[1..]) && ids[0] !in ids[1..]
  {
    var rest := ids[1..];
    assert forall i :: 0 <= i < |rest| ==> rest[i] == ids[i + 1];
  }

  /** The scheduler's test: running, auto-restart on, interval elapsed. */
  predicate Due(e: Entry, now: int) {
    && e.status == Running
    && e.autoRestart
    && now - e.lastStartTime >= IntervalSeconds(e.restartInterval)
  }

  function AutoRestartMarker(interval: string): string {
    ">>> Auto-restarting server (Interval: " + interval + ")..."
  }

  /** `after` is `before` auto-restarted: marker logged, old process detached and
      a new one started with a token in `[lo, hi)`, or the spawn failure logged. */
  ghost predicate AutoRestarted(before: Entry, after: Entry, env: Env, lo: nat, hi: nat) {
    var logged := before.logs + [AutoRestartMarker(before.restartInterval)];
    && SameConfig(after, before)
    && match SpawnOutcome(before, env)
       case Spawned =>
         && after.status == Running
         && after.process.Some? && lo <= after.process.value < hi
         && after.lastStartTime == env.now
         && after.logs == logged
       case SpawnFailed(reason) =>
         && after.status == Stopped && after.process == None
         && after.lastStartTime == before.lastStartTime
         && after.logs == logged + [ErrorLine(reason)]
  }

  /** Marker, kill and detach: the part of a scheduled restart before the spawn. */
  function MarkAndDetach(s: State, id: string): (r: State)
    requires id in s.servers
  {
    var e := s.servers[id];
    s.(servers := s.servers[id := Detach(e, AutoRestartMarker(e.restartInterval))])
  }

  /** One scheduled restart of `id`, with a spawn failure logged on the server. */
  function AutoRestart(s: State, id: string, env: Env): (r: State)
    requires id in s.servers
    ensures OthersUnchanged(s, r, id)
    ensures s.nextToken <= r.nextToken
    ensures AutoRestarted(s.servers[id], r.servers[id], env, s.nextToken, r.nextToken)
  {
    var s1 := MarkAndDetach(s, id);
    assert SpawnOutcome(s1.servers[id], env) == SpawnOutcome(s.servers[id], env);
    Recover(s1, id, StartInternal(s1, id, env))
  }

  /** One pass of the scheduler over the snapshot `ids`. */
  function Tick(s: State, ids: seq<string>, env: Env): (r: State)
    ensures r.servers.Keys == s.servers.Keys
    ensures s.nextToken <= r.nextToken
    decreases |ids|
  {
    if |ids| == 0 then s
    else
      var id := ids[0];
      var s1 := if id in s.servers && Due(s.servers[id], env.now) then AutoRestart(s, id, env) else s;
      Tick(s1, ids[1..], env)
  }

  /** A pass changes no server's configuration. */
  lemma {:induction false} TickKeepsConfig(s: State, ids: seq<string>, env: Env)
    ensures forall id :: id in s.servers ==> SameConfig(Tick(s, ids, env).servers[id], s.servers[id])
    decreases |ids|
  {
    if |ids| > 0 {
      var x := ids[0];
      var s1 := if x in s.servers && Due(s.servers[x], env.now) then AutoRestart(s, x, env) else s;
      TickKeepsConfig(s1, ids[1..], env);
    }
  }

  /** A restart whose token lies in a window also lies in any wider window. */
  lemma AutoRestartedWiden(before: Entry, after: Entry, env: Env, lo: nat, hi: nat, lo': nat, hi': nat)
    requires AutoRestarted(before, after, env, lo, hi)
    requires lo' <= lo && hi <= hi'
    ensures AutoRestarted(before, after, env, lo', hi')
  {
  }

  /** A pass leaves every server that was not due when the pass began, or is not
      in the snapshot, exactly as it was. */
  lemma {:induction false} TickLeavesNotDue(s: State, ids: seq<string>, env: Env)
    ensures forall id :: id in s.servers && !(id in ids && Due(s.servers[id], env.now)) ==>
      Tick(s, ids, env).servers[id] == s.servers[id]
    decreases |ids|
  {
    if |ids| > 0 {
      var id0, rest := ids[0], ids[1..];
      var s1 := if id0 in s.servers && Due(s.servers[id0], env.now) then AutoRestart(s, id0, env) else s;
      assert Tick(s, ids, env) == Tick(s1, rest, env);
      TickLeavesNotDue(s1, rest, env);
      forall id | id in s.servers && !(id in ids && Due(s.servers[id], env.now))
        ensures Tick(s, ids, env).servers[id] == s.servers[id]
      {
        assert s1.servers[id] == s.servers[id];
        assert id in rest ==> id in ids;
      }
    }
  }

  /** Every server of the snapshot that was due when the pass began is restarted
      as `AutoRestarted` says, with a token issued during the pass. */
  lemma {:induction false} TickRestartsDue(s: State, ids: seq<string>, env: Env)
    requires Distinct(ids)
    ensures forall id :: id in s.servers && id in ids && Due(s.servers[id], env.now) ==>
      AutoRestarted(s.servers[id], Tick(s, ids, env).servers[id], env, s.nextToken, Tick(s, ids, env).nextToken)
    decreases |ids|
  {
    if |ids| > 0 {
      var id0, rest := ids[0], ids[1..];
      var s1 := if id0 in s.servers && Due(s.servers[id0], env.now) then AutoRestart(s, id0, env) else s;
      var r := Tick(s, ids, env);
      assert r == Tick(s1, rest, env);
      DistinctTail(ids);
      TickRestartsDue(s1, rest, env);
      forall id | id in s.servers && id in ids && Due(s.servers[id], env.now)
        ensures AutoRestarted(s.servers[id], r.servers[id], env, s.nextToken, r.nextToken)
      {
        if id == id0 {
          assert id0 !in rest by {
            forall i | 0 <= i < |rest| ensures rest[i] != id0 {
              assert rest[i] == ids[i + 1];
            }
          }
          TickLeavesNotDue(s1, rest, env);
          AutoRestartedWiden(s.servers[id], r.servers[id], env, s.nextToken, s1.nextToken, s.nextToken, r.nextToken);
        } else {
          assert id in rest;
          AutoRestartedWiden(s.servers[id], r.servers[id], env, s1.nextToken, r.nextToken, s.nextToken, r.nextToken);
        }
      }
    }
  }

  /** A pass restarts exactly the servers of the snapshot that were due, each as
      `AutoRestarted` says, and leaves every other server as it was. */
  lemma TickRestartsExactlyDue(s: State, ids: seq<string>, env: Env)
    requires Distinct(ids)
    ensures forall id :: id in s.servers && !(id in ids && Due(s.servers[id], env.now)) ==>
      Tick(s, ids, env).servers[id] == s.servers[id]
    ensures forall id :: id in s.servers && id in ids && Due(s.servers[id], env.now) ==>
      AutoRestarted(s.servers[id], Tick(s, ids, env).servers[id], env, s.nextToken, Tick(s, ids, env).nextToken)
  {
    TickLeavesNotDue(s, ids, env);
    TickRestartsDue(s, ids, env);
  }

  /** The scheduler's state as the unguarded loop leaves it: the registry, and
      whether the scheduler thread is still alive. */
  datatype TickOutcome = TickOutcome(state: State, schedulerAlive: bool)

  /** A scheduled restart of `id` would fail: the server is due and `Popen` raises
      for its command. */
  predicate FailsToRestart(s: State, id: string, env: Env) {
    id in s.servers && Due(s.servers[id], env.now) && SpawnOutcome(s.servers[id], env).SpawnFailed?
  }

  /** `ids[k]` is the first server of the snapshot whose scheduled restart fails. */
  predicate FirstFailure(s: State, ids: seq<string>, env: Env, k: int) {
    && 0 <= k < |ids|
    && FailsToRestart(s, ids[k], env)
    && forall j :: 0 <= j < k ==> !FailsToRestart(s, ids[j], env)
  }

  /** One pass of `auto_restarter` as written. The thread survives the pass iff no
      due server of the snapshot fails to spawn, and then the pass is `Tick`. */
  function TickAsWritten(s: State, ids: seq<string>, env: Env): (r: TickOutcome)
    requires Distinct(ids)
    ensures r.state.servers.Keys == s.servers.Keys
    ensures r.schedulerAlive <==> forall id :: id in ids ==> !FailsToRestart(s, id, env)
    ensures r.schedulerAlive ==> r.state == Tick(s, ids, env)
    decreases |ids|
  {
    if |ids| == 0 then TickOutcome(s, true)
    else
      var id, rest := ids[0], ids[1..];
      DistinctTail(ids);
      if id in s.servers && Due(s.servers[id], env.now) then
        var s1 := MarkAndDetach(s, id);
        assert SpawnOutcome(s1.servers[id], env) == SpawnOutcome(s.servers[id], env);
        match StartInternal(s1, id, env)
        case Failure(_) =>
          assert FailsToRestart(s, ids[0], env);
          TickOutcome(s1, false)
        case Success(s2) =>
          assert s2 == AutoRestart(s, id, env);
          assert !FailsToRestart(s, id, env);
          assert forall o :: o in rest ==> (FailsToRestart(s2, o, env) <==> FailsToRestart(s, o, env));
          TickAsWritten(s2, rest, env)
      else TickAsWritten(s, rest, env)
  }

  /** The pass over `ids` stopped at index `k` with registry `final`: `ids[k]` is the
      first failing restart, the servers before it were handled as `Tick` handles
      them, and the failing server is left as the marker and the detach left it. */
  ghost predicate StoppedAt(s: State, ids: seq<string>, env: Env, k: int, final: State) {
    && FirstFailure(s, ids, env, k)
    && ids[k] in Tick(s, ids[..k], env).servers
    && final == MarkAndDetach(Tick(s, ids[..k], env), ids[k])
  }

  /** A server handled successfully at the head of the snapshot moves the stopping
      point one place on. */
  lemma StoppedAtShift(s: State, s2: State, ids: seq<string>, env: Env, k: int, final: State)
    requires |ids| > 0 && ids[0] !in ids[1..]
    requires !FailsToRestart(s, ids[0], env)
    requires s2 == if ids[0] in s.servers && Due(s.servers[ids[0]], env.now) then AutoRestart(s, ids[0], env) else s
    requires StoppedAt(s2, ids[1..], env, k, final)
    ensures StoppedAt(s, ids, env, k + 1, final)
  {
    var id, rest, pre := ids[0], ids[1..], ids[..k + 1];
    assert pre[0] == id && pre[1..] == rest[..k];
    assert Tick(s, pre, env) == Tick(s2, pre[1..], env);
    assert FailsToRestart(s, ids[k + 1], env) by {
      assert ids[k + 1] == rest[k] && rest[k] != id;
      assert s2.servers[rest[k]] == s.servers[rest[k]];
    }
    forall j | 0 < j < k + 1 ensures !FailsToRestart(s, ids[j], env) {
      assert ids[j] == rest[j - 1] && ids[j] != id;
      assert !FailsToRestart(s2, rest[j - 1], env);
    }
  }

  /** When a pass as written ends the thread, it stops at the first server whose
      restart fails: the servers before it were handled as `Tick` handles them, the
      failing server is left as the marker and the detach left it (stopped, no
      process, no `Error:` line), and no server after it is examined. */
  lemma {:induction false} TickAsWrittenStopsAtFirstFailure(s: State, ids: seq<string>, env: Env)
    requires Distinct(ids)
    ensures !TickAsWritten(s, ids, env).schedulerAlive ==>
      exists k :: StoppedAt(s, ids, env, k, TickAsWritten(s, ids, env).state)
    decreases |ids|
  {
    var r := TickAsWritten(s, ids, env);
    if |ids| > 0 && !r.schedulerAlive {
      var id, rest := ids[0], ids[1..];
      DistinctTail(ids);
      if FailsToRestart(s, id, env) {
        assert ids[..0] == [] && Tick(s, ids[..0], env) == s;
        assert StoppedAt(s, ids, env, 0, r.state);
      } else {
        var s2 := if id in s.servers && Due(s.servers[id], env.now) then AutoRestart(s, id, env) else s;
        assert r == TickAsWritten(s2, rest, env);
        TickAsWrittenStopsAtFirstFailure(s2, rest, env);
        var k :| StoppedAt(s2, rest, env, k, r.state);
        StoppedAtShift(s, s2, ids, env, k, r.state);
      }
    }
  }

  /** A pass that stopped at `k` left every server later in the snapshot exactly
      as it was before the pass. */
  lemma StoppedAtLeavesLaterAlone(s: State, ids: seq<string>, env: Env, k: int, final: State)
    requires Distinct(ids) && StoppedAt(s, ids, env, k, final)
    ensures forall j :: k < j < |ids| && ids[j] in s.servers ==> final.servers[ids[j]] == s.servers[ids[j]]
  {
    var pre := ids[..k];
    TickLeavesNotDue(s, pre, env);
    forall j | k < j < |ids| && ids[j] in s.servers
      ensures final.servers[ids[j]] == s.servers[ids[j]]
    {
      assert ids[j] !in pre by {
        forall i | 0 <= i < |pre| ensures pre[i] != ids[j] {
          assert pre[i] == ids[i];
        }
      }
      assert ids[j] != ids[k];
    }
  }

  /** What `Popen` raises when its working directory is missing. */
  const NoSuchDir := "[Errno 2] No such file or directory"

  /** The environment at `now` in which exactly the directories `dirs` exist.
      The command runs through a shell, so `Popen` fails only when the working
      directory is missing. */
  function DirsEnv(now: int, dirs: set<string>): Env {
    Env(now, (d: string) => d in dirs,
        (q: SpawnRequest) => if q.workDir in dirs then Spawned else SpawnFailed(NoSuchDir))
  }

  // The counterexample: servers `a` and `b` both run, both restart every 30
  // seconds, both last started at time 0, and it is now 100. The directory of
  // `a` is gone, so its restart cannot be spawned; that of `b` is still there.

  const ServerA := Entry(Some(0), Running, "serve", "", "/srv/a", true, "30s", [], 0)
  const ServerB := Entry(Some(1), Running, "serve", "", "/srv/b", true, "30s", [], 0)
  const TwoDue := State(map["a" := ServerA, "b" := ServerB], 2)
  const FailingA := DirsEnv(100, {"/srv/b", "/srv/b/"})

  /** As written, the pass dies on `a`: the scheduler thread is gone and `b`, still
      due, is never restarted. */
  lemma WrittenPassDiesOnFirstFailure()
    ensures !TickAsWritten(TwoDue, ["a", "b"], FailingA).schedulerAlive
    ensures TickAsWritten(TwoDue, ["a", "b"], FailingA).state.servers["b"] == ServerB
    ensures Due(ServerB, FailingA.now)
  {
    assert Due(ServerA, 100);
    assert SpawnOutcome(ServerA, FailingA) == SpawnFailed(NoSuchDir);
    var s1 := MarkAndDetach(TwoDue, "a");
    assert StartInternal(s1, "a", FailingA).Failure?;
  }

  /** The guarded restart of `a` logs the failure and leaves `b` alone. */
  lemma GuardedFailureOnA()
    ensures AutoRestart(TwoDue, "a", FailingA).servers["a"].logs == [AutoRestartMarker("30s"), ErrorLine(NoSuchDir)]
    ensures AutoRestart(TwoDue, "a", FailingA).servers["b"] == ServerB
    ensures AutoRestart(TwoDue, "a", FailingA).nextToken == 2
  {
    assert SpawnOutcome(ServerA, FailingA) == SpawnFailed(NoSuchDir);
  }

  /** Whatever came before, a pass over `["b"]` with `b` untouched restarts `b`
      with the next token and does not touch `a`. */
  lemma GuardedRestartOfB(s: State)
    requires "a" in s.servers && "b" in s.servers
    requires s.servers["b"] == ServerB && s.nextToken == 2
    ensures Tick(s, ["b"], FailingA).servers["a"] == s.servers["a"]
    ensures Tick(s, ["b"], FailingA).servers["b"].status == Running
    ensures Tick(s, ["b"], FailingA).servers["b"].process == Some(2)
    ensures Tick(s, ["b"], FailingA).servers["b"].lastStartTime == 100
  {
    assert Due(ServerB, 100);
    assert SpawnOutcome(ServerB, FailingA) == Spawned;
    assert Tick(s, ["b"], FailingA) == Tick(AutoRestart(s, "b", FailingA), [], FailingA);
  }

  /** The guarded pass logs the failure on `a` and still restarts `b`. */
  lemma GuardedPassSurvivesFailure()
    ensures Tick(TwoDue, ["a", "b"], FailingA).servers["a"].logs == [AutoRestartMarker("30s"), ErrorLine(NoSuchDir)]
    ensures Tick(TwoDue, ["a", "b"], FailingA).servers["b"].status == Running
    ensures Tick(TwoDue, ["a", "b"], FailingA).servers["b"].process == Some(2)
    ensures Tick(TwoDue, ["a", "b"], FailingA).servers["b"].lastStartTime == 100
  {
    assert Due(ServerA, 100);
    var s1 := AutoRestart(TwoDue, "a", FailingA);
    GuardedFailureOnA();
    assert Tick(TwoDue, ["a", "b"], FailingA) == Tick(s1, ["b"], FailingA);
    GuardedRestartOfB(s1);
  }

  /** Two servers due for restart, the first of which can no longer be spawned:
      as written the pass dies on the first and never restarts the second, and the
      scheduler thread is gone; the guarded pass logs the error and restarts the
      second. */
  lemma SpawnFailureEndsSchedulerAsWritten()
    ensures
      var written := TickAsWritten(TwoDue, ["a", "b"], FailingA);
      var guarded := Tick(TwoDue, ["a", "b"], FailingA);
      && !written.schedulerAlive
      && written.state.servers["b"] == ServerB
      && Due(written.state.servers["b"], FailingA.now)
      && guarded.servers["a"].logs == [AutoRestartMarker("30s"), ErrorLine(NoSuchDir)]
      && guarded.servers["b"].status == Running
      && guarded.servers["b"].process == Some(2)
      && guarded.servers["b"].lastStartTime == 100
  {
    WrittenPassDiesOnFirstFailure();
    GuardedPassSurvivesFailure();
  }
}

=== FILE: scheduler_thread.dfy ===
/** The scheduler thread `auto_restarter` (app.py:147-168) statement group by
    statement group. A pass takes a snapshot of the registry's (id, entry) pairs and
    then, for each pair, examines the entry, logs the restart marker, kills the old
    process (up to three seconds, during which its monitor thread keeps running),
    and finally detaches it and starts a new one. The other threads and the route
    handlers run between these steps. The thread holds the snapshot's entries by
    reference, so an entry deleted during the pass lives on in the thread as an
    orphan that the thread keeps reading and writing. */
module SchedulerThread {
  import opened Common
  import opened Registry
  import opened Scheduler

  /** `AsWritten` follows the code: a spawn failure ends the thread. `Guarded`
      logs the failure on the server and carries on, like `Scheduler.Tick`. */
  datatype Mode = AsWritten | Guarded

  /** Where the thread is within the current server of a pass. */
  datatype Focus =
    | Scanning                              // about to examine the next server
    | Chosen(id: string, interval: string)  // found due, marker not yet logged
    | Marked(id: string)                    // marker logged, old process being killed

  /** `orphans` holds the entries of servers deleted during the pass that the
      thread still references. */
  datatype Thread =
    | Sleeping
    | InPass(now: int, pending: seq<string>, focus: Focus, orphans: map<string, Entry>)
    | Dead

  /** The registry together with the scheduler thread. */
  datatype Sched = Sched(reg: State, thread: Thread)

  /** `ids` lists every server of `s` exactly once, in some order: what
      `list(SERVERS.items())` yields. */
  predicate IsSnapshot(ids: seq<string>, s: State) {
    && Distinct(ids)
    && (forall id :: id in s.servers ==> id in ids)
    && (forall id :: id in ids ==> id in s.servers)
  }

  /** The thread still holds a reference to the entry of `id`. */
  predicate Holds(t: Thread, id: string) {
    t.InPass? && (id in t.pending || (!t.focus.Scanning? && t.focus.id == id))
  }

  /** The entry the thread reads for `id`: its orphan if the server was deleted
      during the pass, the registry's entry otherwise. */
  function Held(reg: State, orphans: map<string, Entry>, id: string): Option<Entry> {
    if id in orphans then Some(orphans[id])
    else if id in reg.servers then Some(reg.servers[id])
    else None
  }

  /** Writes `e` back where `Held` found the entry of `id`. */
  function Put(reg: State, orphans: map<string, Entry>, id: string, e: Entry): (r: (State, map<string, Entry>))
    ensures r.0.nextToken == reg.nextToken && OthersUnchanged(reg, r.0, id)
    ensures id in orphans || id !in reg.servers ==> r.0 == reg
    ensures id !in orphans && id in reg.servers ==> r.0.servers[id] == e
    ensures Held(reg, orphans, id).Some? ==> Held(r.0, r.1, id) == Some(e)
  {
    if id in orphans then (reg, orphans[id := e])
    else if id in reg.servers then (reg.(servers := reg.servers[id := e]), orphans)
    else (reg, orphans)
  }

  /** The thread wakes from its sleep and takes a snapshot; it does so only when
      it is sleeping. */
  function Wake(x: Sched, ids: seq<string>, now: int): (r: Sched)
    ensures r.reg == x.reg
    ensures !x.thread.Sleeping? ==> r == x
    ensures x.thread.Sleeping? ==> (r.thread.InPass? <==> IsSnapshot(ids, x.reg))
    ensures x.thread.Sleeping? && !IsSnapshot(ids, x.reg) ==> r == x
    ensures x.thread.Sleeping? && r.thread.InPass? ==>
      r.thread.now == now && r.thread.pending == ids && r.thread.focus.Scanning? && r.thread.orphans == map[]
  {
    if x.thread.Sleeping? && IsSnapshot(ids, x.reg) then x.(thread := InPass(now, ids, Scanning, map[]))
    else x
  }

  /** Lines 151-160: the next server of the snapshot is due if its entry is
      running with auto-restart on and its interval has elapsed at the time the
      pass began; the snapshot exhausted, the thread goes back to sleep. */
  function Examine(x: Sched): (r: Sched)
    requires x.thread.InPass? && x.thread.focus.Scanning?
    ensures r.reg == x.reg
    ensures r.thread.Sleeping? <==> |x.thread.pending| == 0
    ensures r.thread.InPass? ==> |r.thread.pending| == |x.thread.pending| - 1 && !r.thread.focus.Marked?
    ensures |x.thread.pending| > 0 ==>
      var id := x.thread.pending[0];
      var h := Held(x.reg, x.thread.orphans, id);
      && r.thread.InPass? && r.thread.pending == x.thread.pending[1..]
      && r.thread.now == x.thread.now && r.thread.orphans == x.thread.orphans
      && (r.thread.focus.Chosen? <==> h.Some? && Due(h.value, x.thread.now))
      && (r.thread.focus.Chosen? ==> r.thread.focus == Chosen(id, h.value.restartInterval))
  {
    var t := x.thread;
    if |t.pending| == 0 then x.(thread := Sleeping)
    else
      var id := t.pending[0];
      var h := Held(x.reg, t.orphans, id);
      var focus := if h.Some? && Due(h.value, t.now) then Chosen(id, h.value.restartInterval) else Scanning;
      x.(thread := t.(pending := t.pending[1..], focus := focus))
  }

  /** Line 163: the marker naming the interval read while examining. */
  function Mark(x: Sched): (r: Sched)
    requires x.thread.InPass? && x.thread.focus.Chosen?
    ensures r.reg.nextToken == x.reg.nextToken && OthersUnchanged(x.reg, r.reg, x.thread.focus.id)
    ensures var id, interval := x.thread.focus.id, x.thread.focus.interval;
      id in x.reg.servers && id !in x.thread.orphans ==>
        r.reg.servers[id] == x.reg.servers[id].(logs := x.reg.servers[id].logs + [AutoRestartMarker(interval)])
    ensures x.thread.focus.id in x.thread.orphans ==> r.reg == x.reg
    ensures r.thread.InPass? && r.thread.pending == x.thread.pending && r.thread.focus == Marked(x.thread.focus.id)
    ensures r.thread.now == x.thread.now
    ensures var id, interval := x.thread.focus.id, x.thread.focus.interval;
      id in x.thread.orphans ==>
        r.thread.orphans == x.thread.orphans[id := x.thread.orphans[id].(logs := x.thread.orphans[id].logs + [AutoRestartMarker(interval)])]
    ensures x.thread.focus.id !in x.thread.orphans ==> r.thread.orphans == x.thread.orphans
  {
    var t := x.thread;
    var id := t.focus.id;
    match Held(x.reg, t.orphans, id)
    case None => x.(thread := t.(focus := Marked(id)))
    case Some(e) =>
      var (reg, orphans) := Put(x.reg, t.orphans, id, e.(logs := e.logs + [AutoRestartMarker(t.focus.interval)]));
      Sched(reg, t.(focus := Marked(id), orphans := orphans))
  }

  /** `after` is what a restart leaves of `before`, the entry the thread held: a
      new process holding token `tok`, started at `env.now`; or, when the spawn
      fails, no process and stopped, with the error logged only by the guarded
      thread. The configuration is kept either way. */
  predicate Respawned(before: Entry, after: Entry, env: Env, tok: Token, mode: Mode) {
    match SpawnOutcome(before, env)
    case Spawned =>
      after == before.(process := Some(tok), status := Running, lastStartTime := env.now)
    case SpawnFailed(reason) =>
      && after.(logs := before.logs) == before.(process := None, status := Stopped)
      && after.logs == (if mode == AsWritten then before.logs else before.logs + [ErrorLine(reason)])
  }

  /** Lines 165-168 once the kill has returned: the old process is detached, the
      entry set stopped, and `start_server_internal` spawns a new process (it
      always tries, the status having just been set to stopped). A failed spawn
      raises: as written this ends the thread with the server stopped and no
      error logged; guarded, the error is logged and the pass goes on. A spawn
      for an orphan consumes a token that no registry entry will ever hold. */
  function Respawn(x: Sched, env: Env, mode: Mode): (r: Sched)
    requires x.thread.InPass? && x.thread.focus.Marked?
    ensures OthersUnchanged(x.reg, r.reg, x.thread.focus.id)
    ensures x.reg.nextToken <= r.reg.nextToken <= x.reg.nextToken + 1
    ensures var h := Held(x.reg, x.thread.orphans, x.thread.focus.id);
      r.thread.Dead? <==> mode == AsWritten && h.Some? && SpawnOutcome(h.value, env).SpawnFailed?
    ensures r.thread.InPass? ==> r.thread.pending == x.thread.pending && r.thread.focus.Scanning?
    ensures !r.thread.Dead? ==> r.thread.InPass?
    ensures var id := x.thread.focus.id;
      id in x.reg.servers ==>
        var e, n := x.reg.servers[id], r.reg.servers[id];
        && SameConfig(n, e)
        && (|| n == e
            || (n.process == None && n.status == Stopped)
            || (n.status == Running && n.process == Some(x.reg.nextToken) && r.reg.nextToken == x.reg.nextToken + 1))
    ensures var id, h := x.thread.focus.id, Held(x.reg, x.thread.orphans, x.thread.focus.id);
      h.Some? ==>
        && r.reg.nextToken == x.reg.nextToken + (if SpawnOutcome(h.value, env).Spawned? then 1 else 0)
        && (id !in x.thread.orphans ==>
              && Respawned(h.value, r.reg.servers[id], env, x.reg.nextToken, mode)
              && (r.thread.InPass? ==> r.thread.orphans == x.thread.orphans))
        && (id in x.thread.orphans ==>
              && r.reg.servers == x.reg.servers
              && (r.thread.InPass? ==>
                    && id in r.thread.orphans
                    && r.thread.orphans == x.thread.orphans[id := r.thread.orphans[id]]
                    && Respawned(h.value, r.thread.orphans[id], env, x.reg.nextToken, mode)))
    ensures Held(x.reg, x.thread.orphans, x.thread.focus.id).None? ==> r == x.(thread := x.thread.(focus := Scanning))
    ensures r.thread.InPass? ==> r.thread.now == x.thread.now
  {
    var t := x.thread;
    var id := t.focus.id;
    match Held(x.reg, t.orphans, id)
    case None => x.(thread := t.(focus := Scanning))
    case Some(e) =>
      var stopped := e.(process := None, status := Stopped);
      assert SpawnOutcome(stopped, env) == SpawnOutcome(e, env);
      match SpawnOutcome(stopped, env)
      case Spawned =>
        var started := stopped.(process := Some(x.reg.nextToken), status := Running, lastStartTime := env.now);
        var (reg, orphans) := Put(x.reg, t.orphans, id, started);
        Sched(reg.(nextToken := reg.nextToken + 1), t.(focus := Scanning, orphans := orphans))
      case SpawnFailed(reason) =>
        if mode == AsWritten then
          var (reg, _) := Put(x.reg, t.orphans, id, stopped);
          Sched(reg, Dead)
        else
          var (reg, orphans) := Put(x.reg, t.orphans, id, stopped.(logs := stopped.logs + [ErrorLine(reason)]));
          Sched(reg, t.(focus := Scanning, orphans := orphans))
  }

  /** How many steps the current pass can still take. */
  function StepsLeft(t: Thread): nat {
    match t
    case InPass(_, pending, focus, _) =>
      3 * |pending| + (match focus case Scanning => 1 case Marked(_) => 2 case Chosen(_, _) => 3)
    case _ => 0
  }

  /** One step of the thread. A sleeping or dead thread does nothing. A step
      never changes the set of servers or any server's configuration, attaches
      only a token it issues itself, and brings the pass closer to its end; only
      a failed spawn in the code as written kills the thread. */
  function Advance(x: Sched, env: Env, mode: Mode): (r: Sched)
    ensures !x.thread.InPass? ==> r == x
    ensures x.thread.InPass? ==> StepsLeft(r.thread) < StepsLeft(x.thread)
    ensures r.thread.Dead? ==> x.thread.Dead? || mode == AsWritten
    ensures r.reg.servers.Keys == x.reg.servers.Keys
    ensures x.reg.nextToken <= r.reg.nextToken
    ensures forall id :: id in x.reg.servers ==> SameConfig(r.reg.servers[id], x.reg.servers[id])
    ensures forall id ::
      (id in x.reg.servers && r.reg.servers[id].process.Some? &&
       r.reg.servers[id].process != x.reg.servers[id].process) ==>
        x.reg.nextToken <= r.reg.servers[id].process.value < r.reg.nextToken
  {
    match x.thread
    case InPass(_, _, focus, _) =>
      (match focus
       case Scanning => Examine(x)
       case Chosen(_, _) => Mark(x)
       case Marked(_) => Respawn(x, env, mode))
    case _ => x
  }

  /** A delete request: if the thread still holds the deleted entry, the entry
      lives on as an orphan in the thread. */
  function Orphan(t: Thread, id: string, e: Entry): (r: Thread)
    ensures Holds(t, id) && id !in t.orphans ==> r.InPass? && r.orphans == t.orphans[id := e]
    ensures !(Holds(t, id) && id !in t.orphans) ==> r == t
    ensures r.InPass? ==> r.(orphans := t.orphans) == t
  {
    if Holds(t, id) && id !in t.orphans then t.(orphans := t.orphans[id := e]) else t
  }

  /** The rest of the current pass when nothing else runs in between. */
  function Finish(x: Sched, env: Env, mode: Mode): (r: Sched)
    ensures !r.thread.InPass?
    ensures x.thread.InPass? ==> (r.thread.Dead? ==> mode == AsWritten)
    decreases StepsLeft(x.thread)
  {
    if x.thread.InPass? then Finish(Advance(x, env, mode), env, mode) else x
  }

  /** The pass right after waking over `ids`, with no orphans yet. */
  function Begun(s: State, ids: seq<string>, now: int): Sched {
    Sched(s, InPass(now, ids, Scanning, map[]))
  }

  /** The first server of the pass, examined with nothing else interleaved: a
      server that is not due is passed over. */
  lemma PassOverNotDue(s: State, ids: seq<string>, env: Env, mode: Mode)
    requires |ids| > 0
    requires !(ids[0] in s.servers && Due(s.servers[ids[0]], env.now))
    ensures Finish(Begun(s, ids, env.now), env, mode) == Finish(Begun(s, ids[1..], env.now), env, mode)
  {
    assert Advance(Begun(s, ids, env.now), env, mode) == Begun(s, ids[1..], env.now);
  }

  /** The entry of a due server after the marker step. */
  function Marked1(e: Entry): Entry {
    e.(logs := e.logs + [AutoRestartMarker(e.restartInterval)])
  }

  /** The last step for a due server, with nothing else interleaved: it leaves
      what `start_server_internal` leaves after the marker and the detach, or, if
      that raises, ends the thread (as written) or logs the error (guarded). */
  lemma RespawnStep(s: State, rest: seq<string>, id: string, env: Env, mode: Mode)
    requires id in s.servers
    ensures var x2 := Sched(s.(servers := s.servers[id := Marked1(s.servers[id])]), InPass(env.now, rest, Marked(id), map[]));
      match StartInternal(MarkAndDetach(s, id), id, env)
      case Success(s2) => Advance(x2, env, mode) == Begun(s2, rest, env.now)
      case Failure(reason) =>
        if mode == AsWritten then Advance(x2, env, mode) == Sched(MarkAndDetach(s, id), Dead)
        else Advance(x2, env, mode) == Begun(AppendLog(MarkAndDetach(s, id), id, ErrorLine(reason)), rest, env.now)
  {
    var s1, m := MarkAndDetach(s, id), Marked1(s.servers[id]);
    var x2 := Sched(s.(servers := s.servers[id := m]), InPass(env.now, rest, Marked(id), map[]));
    assert Advance(x2, env, mode) == Respawn(x2, env, mode);
    assert Held(x2.reg, map[], id) == Some(m);
    assert s1.servers[id] == m.(process := None, status := Stopped);
    assert SpawnOutcome(s1.servers[id], env) == SpawnOutcome(m, env);
  }

  /** The three steps a due server takes when nothing else runs in between. */
  lemma RestartSteps(s: State, ids: seq<string>, env: Env, mode: Mode)
    requires |ids| > 0 && ids[0] in s.servers && Due(s.servers[ids[0]], env.now)
    ensures var id, x0 := ids[0], Begun(s, ids, env.now);
      var x2 := Sched(s.(servers := s.servers[id := Marked1(s.servers[id])]), InPass(env.now, ids[1..], Marked(id), map[]));
      Finish(x0, env, mode) == Finish(Advance(x2, env, mode), env, mode)
  {
    var id, e, x0 := ids[0], s.servers[ids[0]], Begun(s, ids, env.now);
    var x1 := Advance(x0, env, mode);
    assert x1 == Sched(s, InPass(env.now, ids[1..], Chosen(id, e.restartInterval), map[]));
    var x2 := Advance(x1, env, mode);
    assert x2 == Sched(s.(servers := s.servers[id := Marked1(e)]), InPass(env.now, ids[1..], Marked(id), map[]));
    assert Finish(x0, env, mode) == Finish(x1, env, mode);
    assert Finish(x1, env, mode) == Finish(x2, env, mode);
    assert Finish(x2, env, mode) == Finish(Advance(x2, env, mode), env, mode);
  }

  /** A pass with nothing interleaved does what the pass of `Scheduler.Tick`
      does: the guarded thread leaves exactly the registry `Tick` computes and
      goes back to sleep. */
  lemma {:induction false} UninterruptedPassGuarded(s: State, ids: seq<string>, env: Env)
    ensures Finish(Begun(s, ids, env.now), env, Guarded) == Sched(Tick(s, ids, env), Sleeping)
    decreases |ids|
  {
    var x0 := Begun(s, ids, env.now);
    if |ids| == 0 {
      assert Advance(x0, env, Guarded) == Sched(s, Sleeping);
    } else if ids[0] in s.servers && Due(s.servers[ids[0]], env.now) {
      RestartSteps(s, ids, env, Guarded);
      RespawnStep(s, ids[1..], ids[0], env, Guarded);
      UninterruptedPassGuarded(AutoRestart(s, ids[0], env), ids[1..], env);
    } else {
      PassOverNotDue(s, ids, env, Guarded);
      UninterruptedPassGuarded(s, ids[1..], env);
    }
  }

  /** A pass with nothing interleaved does what `Scheduler.TickAsWritten` does:
      the thread as written leaves the registry that function computes, and it
      goes back to sleep exactly when the pass lets the scheduler survive, and
      dies otherwise. */
  lemma {:induction false} UninterruptedPassAsWritten(s: State, ids: seq<string>, env: Env)
    requires Distinct(ids)
    ensures var r, w := Finish(Begun(s, ids, env.now), env, AsWritten), TickAsWritten(s, ids, env);
      && r.reg == w.state
      && (r.thread.Sleeping? <==> w.schedulerAlive)
      && (r.thread.Dead? <==> !w.schedulerAlive)
    decreases |ids|
  {
    var x0 := Begun(s, ids, env.now);
    if |ids| == 0 {
      assert Advance(x0, env, AsWritten) == Sched(s, Sleeping);
    } else {
      var rest := ids[1..];
      DistinctTail(ids);
      if ids[0] in s.servers && Due(s.servers[ids[0]], env.now) {
        RestartSteps(s, ids, env, AsWritten);
        RespawnStep(s, rest, ids[0], env, AsWritten);
        match StartInternal(MarkAndDetach(s, ids[0]), ids[0], env)
        case Success(s2) => UninterruptedPassAsWritten(s2, rest, env);
        case Failure(_) =>
      } else {
        PassOverNotDue(s, ids, env, AsWritten);
        UninterruptedPassAsWritten(s, rest, env);
      }
    }
  }
}

=== FILE: system.dfy ===
/** The whole program as one sequential state machine. Every route handler, every
    step of a monitor thread, every step of an install thread and every step of
    the scheduler thread is one atomic event; the threads' concurrency is the
    freedom to interleave these events in any order. The properties below hold of
    every interleaving, for the scheduler as written and for the guarded one. */
module System {
  import opened Common
  import opened Registry
  import Monitor
  import Install
  import Scheduler
  import opened SchedulerThread
  import Persistence

  datatype Event =
    | CreateServer(name: string, command: string)
    | Action(id: string, action: string, env: Env)
    | Settings(id: string, cmd: string, cwd: string, autoRestart: string, interval: string)
    | MonitorLine(id: string, tok: Token, line: string)
    | MonitorEof(id: string, tok: Token)
    | SchedulerWake(ids: seq<string>, now: int)
    | SchedulerStep(env: Env)
    | InstallBegin(id: string, command: string)
    | InstallOutput(id: string, line: string)
    | InstallFinish(id: string, failure: Option<string>)

  /** The effect of one event; a refused request leaves everything as it was.
      `uploadFolder` is the directory under which servers are created, `mode`
      says which scheduler runs. A delete also orphans the entry in the scheduler
      thread if the thread still holds it. */
  function Step(w: Sched, ev: Event, uploadFolder: string, mode: Mode): Sched {
    match ev
    case CreateServer(name, command) =>
      (match Create(w.reg, name, command, uploadFolder)
       case Success(t) => w.(reg := t)
       case Failure(_) => w)
    case Action(id, action, env) =>
      (match ServerAction(w.reg, id, action, env)
       case Success(t) =>
         Sched(t, if action == "delete" then Orphan(w.thread, id, w.reg.servers[id]) else w.thread)
       case Failure(_) => w)
    case Settings(id, cmd, cwd, autoRestart, interval) =>
      w.(reg := UpdateSettings(w.reg, id, cmd, cwd, autoRestart, interval))
    case MonitorLine(id, tok, line) => w.(reg := Monitor.OnLine(w.reg, id, tok, line))
    case MonitorEof(id, tok) => w.(reg := Monitor.OnEof(w.reg, id, tok))
    case SchedulerWake(ids, now) => Wake(w, ids, now)
    case SchedulerStep(env) => Advance(w, env, mode)
    case InstallBegin(id, command) => w.(reg := Install.Begin(w.reg, id, command))
    case InstallOutput(id, line) => w.(reg := Install.Output(w.reg, id, line))
    case InstallFinish(id, failure) => w.(reg := Install.Finish(w.reg, id, failure))
  }

  function Run(w: Sched, evs: seq<Event>, uploadFolder: string, mode: Mode): Sched
    decreases |evs|
  {
    if |evs| == 0 then w else Run(Step(w, evs[0], uploadFolder, mode), evs[1..], uploadFolder, mode)
  }

  /** The program right after start-up: the loaded registry, the scheduler asleep. */
  function Started(db: map<string, Persistence.Saved>): (w: Sched)
    ensures w.thread.Sleeping? && w.reg.servers.Keys == db.Keys
  {
    Sched(Persistence.Boot(db), Sleeping)
  }

  // ---------------------------------------------------------------- invariant

  /** Every attached process was handed out already; a running server has a
      process; no process belongs to two servers. */
  ghost predicate Inv(s: State) {
    && (forall id :: id in s.servers && s.servers[id].process.Some? ==>
          s.servers[id].process.value < s.nextToken)
    && (forall id :: id in s.servers && s.servers[id].status == Running ==>
          s.servers[id].process.Some?)
    && (forall a, b :: a in s.servers && b in s.servers && a != b && s.servers[a].process.Some? ==>
          s.servers[a].process != s.servers[b].process)
  }

  /** The registry a fresh start loads satisfies the invariant. */
  lemma BootInv(db: map<string, Persistence.Saved>)
    ensures Inv(Started(db).reg)
  {
  }

  /** Changing one entry keeps the invariant when the entry keeps its process or
      gets a token issued by the change itself, and is running only with a process. */
  lemma EntryChangeKeepsInv(s: State, r: State, id: string)
    requires Inv(s)
    requires id in s.servers && OthersUnchanged(s, r, id)
    requires s.nextToken <= r.nextToken
    requires r.servers[id].process.Some? ==>
      r.servers[id].process == s.servers[id].process
      || s.nextToken <= r.servers[id].process.value < r.nextToken
    requires r.servers[id].status == Running ==> r.servers[id].process.Some?
    ensures Inv(r)
  {
    forall a, b | a in r.servers && b in r.servers && a != b && r.servers[a].process.Some?
      ensures r.servers[a].process != r.servers[b].process
    {
      if a == id || b == id {
        var other := if a == id then b else a;
        assert r.servers[other] == s.servers[other];
      }
    }
  }

  /** A step of the scheduler thread changes at most the entry it holds, and
      only by logging, detaching or attaching a token it issues itself. */
  lemma AdvanceKeepsInv(x: Sched, env: Env, mode: Mode)
    requires Inv(x.reg)
    ensures Inv(Advance(x, env, mode).reg)
  {
    if x.thread.InPass? {
      var r := Advance(x, env, mode);
      match x.thread.focus
      case Scanning =>
      case Chosen(id, _) =>
        assert r == Mark(x);
        if id in x.reg.servers { EntryChangeKeepsInv(x.reg, r.reg, id); }
      case Marked(id) =>
        assert r == Respawn(x, env, mode);
        if id in x.reg.servers { EntryChangeKeepsInv(x.reg, r.reg, id); }
    }
  }

  lemma ActionKeepsInv(s: State, id: string, action: string, env: Env)
    requires Inv(s)
    ensures ServerAction(s, id, action, env).Success? ==> Inv(ServerAction(s, id, action, env).value)
  {
    if id in s.servers {
      var r := ServerAction(s, id, action, env).value;
      if action in {"start", "stop", "restart"} {
        EntryChangeKeepsInv(s, r, id);
      }
    }
  }

  lemma CreateKeepsInv(s: State, name: string, command: string, uploadFolder: string)
    requires Inv(s)
    ensures Create(s, name, command, uploadFolder).Success? ==> Inv(Create(s, name, command, uploadFolder).value)
  {
    var r := Create(s, name, command, uploadFolder);
    if r.Success? {
      var n := NormaliseName(name);
      assert forall o :: o in r.value.servers && o != n ==> r.value.servers[o] == s.servers[o];
    }
  }

  lemma SettingsKeepsInv(s: State, id: string, cmd: string, cwd: string, autoRestart: string, interval: string)
    requires Inv(s)
    ensures Inv(UpdateSettings(s, id, cmd, cwd, autoRestart, interval))
  {
    if id in s.servers { EntryChangeKeepsInv(s, UpdateSettings(s, id, cmd, cwd, autoRestart, interval), id); }
  }

  lemma LineKeepsInv(s: State, id: string, tok: Token, line: string)
    requires Inv(s)
    ensures Inv(Monitor.OnLine(s, id, tok, line))
  {
    if IsCurrent(s, id, tok) && line != "" { EntryChangeKeepsInv(s, Monitor.OnLine(s, id, tok, line), id); }
  }

  lemma EofKeepsInv(s: State, id: string, tok: Token)
    requires Inv(s)
    ensures Inv(Monitor.OnEof(s, id, tok))
  {
    if IsCurrent(s, id, tok) { EntryChangeKeepsInv(s, Monitor.OnEof(s, id, tok), id); }
  }

  lemma InstallBeginKeepsInv(s: State, id: string, command: string)
    requires Inv(s)
    ensures Inv(Install.Begin(s, id, command))
  {
    if id in s.servers { EntryChangeKeepsInv(s, Install.Begin(s, id, command), id); }
  }

  lemma InstallOutputKeepsInv(s: State, id: string, line: string)
    requires Inv(s)
    ensures Inv(Install.Output(s, id, line))
  {
    if id in s.servers && line != "" { EntryChangeKeepsInv(s, Install.Output(s, id, line), id); }
  }

  lemma InstallFinishKeepsInv(s: State, id: string, failure: Option<string>)
    requires Inv(s)
    ensures Inv(Install.Finish(s, id, failure))
  {
    if id in s.servers { EntryChangeKeepsInv(s, Install.Finish(s, id, failure), id); }
  }

  /** Events of the monitor and install threads. */
  predicate ThreadEvent(ev: Event) {
    ev.MonitorLine? || ev.MonitorEof? || ev.InstallBegin? || ev.InstallOutput? || ev.InstallFinish?
  }

  lemma ThreadEventKeepsInv(w: Sched, ev: Event, uploadFolder: string, mode: Mode)
    requires Inv(w.reg) && ThreadEvent(ev)
    ensures Inv(Step(w, ev, uploadFolder, mode).reg)
  {
    var s := w.reg;
    match ev
    case MonitorLine(id, tok, line) =>
      assert Step(w, ev, uploadFolder, mode).reg == Monitor.OnLine(s, id, tok, line);
      LineKeepsInv(s, id, tok, line);
    case MonitorEof(id, tok) =>
      assert Step(w, ev, uploadFolder, mode).reg == Monitor.OnEof(s, id, tok);
      EofKeepsInv(s, id, tok);
    case InstallBegin(id, command) =>
      assert Step(w, ev, uploadFolder, mode).reg == Install.Begin(s, id, command);
      InstallBeginKeepsInv(s, id, command);
    case InstallOutput(id, line) =>
      assert Step(w, ev, uploadFolder, mode).reg == Install.Output(s, id, line);
      InstallOutputKeepsInv(s, id, line);
    case InstallFinish(id, failure) =>
      assert Step(w, ev, uploadFolder, mode).reg == Install.Finish(s, id, failure);
      InstallFinishKeepsInv(s, id, failure);
  }

  lemma RequestKeepsInv(w: Sched, ev: Event, uploadFolder: string, mode: Mode)
    requires Inv(w.reg) && !ThreadEvent(ev)
    ensures Inv(Step(w, ev, uploadFolder, mode).reg)
  {
    var s := w.reg;
    match ev
    case CreateServer(name, command) => CreateKeepsInv(s, name, command, uploadFolder);
    case Action(id, action, env) => ActionKeepsInv(s, id, action, env);
    case Settings(id, cmd, cwd, autoRestart, interval) => SettingsKeepsInv(s, id, cmd, cwd, autoRestart, interval);
    case SchedulerWake(ids, now) =>
    case SchedulerStep(env) => AdvanceKeepsInv(w, env, mode);
  }

  /** Every event keeps the invariant. */
  lemma StepKeepsInv(w: Sched, ev: Event, uploadFolder: string, mode: Mode)
    requires Inv(w.reg)
    ensures Inv(Step(w, ev, uploadFolder, mode).reg)
  {
    if ThreadEvent(ev) {
      ThreadEventKeepsInv(w, ev, uploadFolder, mode);
    } else {
      RequestKeepsInv(w, ev, uploadFolder, mode);
    }
  }

  /** Every interleaving keeps the invariant. */
  lemma {:induction false} RunKeepsInv(w: Sched, evs: seq<Event>, uploadFolder: string, mode: Mode)
    requires Inv(w.reg)
    ensures Inv(Run(w, evs, uploadFolder, mode).reg)
    decreases |evs|
  {
    if |evs| > 0 {
      StepKeepsInv(w, evs[0], uploadFolder, mode);
      RunKeepsInv(Step(w, evs[0], uploadFolder, mode), evs[1..], uploadFolder, mode);
    }
  }

  // ---------------------------------------------------------------- supersession

  /** The monitor of process `tok` was started and no longer owns server `id`:
      the server was deleted, or its process was detached or replaced. */
  predicate Superseded(s: State, id: string, tok: Token) {
    tok < s.nextToken && !IsCurrent(s, id, tok)
  }

  /** A superseded monitor's line and end-of-stream events change nothing. */
  lemma SupersededMonitorIsInert(s: State, id: string, tok: Token, line: string)
    requires Superseded(s, id, tok)
    ensures Monitor.OnLine(s, id, tok, line) == s
    ensures Monitor.OnEof(s, id, tok) == s
  {
  }

  /** No event brings a superseded monitor back: process tokens are never reused. */
  lemma StepKeepsSuperseded(w: Sched, ev: Event, uploadFolder: string, mode: Mode, id: string, tok: Token)
    requires Superseded(w.reg, id, tok)
    ensures Superseded(Step(w, ev, uploadFolder, mode).reg, id, tok)
  {
  }

  /** Once superseded, a monitor stays superseded through any interleaving of
      events, so none of its later lines or its end of stream ever reaches the
      registry: in particular the old process's exit marker can never follow the
      start of a new process. */
  lemma {:induction false} SupersededForever(w: Sched, evs: seq<Event>, uploadFolder: string, mode: Mode, id: string, tok: Token)
    requires Superseded(w.reg, id, tok)
    ensures var r := Run(w, evs, uploadFolder, mode).reg;
      && Superseded(r, id, tok)
      && (forall line :: Monitor.OnLine(r, id, tok, line) == r)
      && Monitor.OnEof(r, id, tok) == r
    decreases |evs|
  {
    if |evs| > 0 {
      StepKeepsSuperseded(w, evs[0], uploadFolder, mode, id, tok);
      SupersededForever(Step(w, evs[0], uploadFolder, mode), evs[1..], uploadFolder, mode, id, tok);
    }
  }

  /** Stop, restart and delete supersede the monitor of the process they detach. */
  lemma ControlActionsSupersede(w: Sched, id: string, tok: Token, action: string, env: Env, uploadFolder: string, mode: Mode)
    requires Inv(w.reg)
    requires IsCurrent(w.reg, id, tok)
    requires action in {"stop", "restart", "delete"}
    ensures Superseded(Step(w, Action(id, action, env), uploadFolder, mode).reg, id, tok)
  {
    assert tok < w.reg.nextToken;
  }

  /** Starting a server that the previous start left running does nothing: two
      start requests in a row spawn at most one process. */
  lemma SecondStartIsNoOp(w: Sched, id: string, env1: Env, env2: Env, uploadFolder: string, mode: Mode)
    requires id in w.reg.servers
    ensures
      var w1 := Step(w, Action(id, "start", env1), uploadFolder, mode);
      w1.reg.servers[id].status == Running ==> Step(w1, Action(id, "start", env2), uploadFolder, mode) == w1
  {
  }

  // ---------------------------------------------------------------- scheduler thread

  /** A dead scheduler thread stays dead whatever happens, and its steps do
      nothing: no server is ever auto-restarted again. */
  lemma {:induction false} DeadSchedulerStaysDead(w: Sched, evs: seq<Event>, uploadFolder: string, mode: Mode)
    requires w.thread.Dead?
    ensures Run(w, evs, uploadFolder, mode).thread.Dead?
    ensures forall env :: Step(Run(w, evs, uploadFolder, mode), SchedulerStep(env), uploadFolder, mode)
                          == Run(w, evs, uploadFolder, mode)
    decreases |evs|
  {
    if |evs| > 0 {
      var w1 := Step(w, evs[0], uploadFolder, mode);
      assert w1.thread.Dead? by {
        if evs[0].Action? && evs[0].action == "delete" && ServerAction(w.reg, evs[0].id, "delete", evs[0].env).Success? {
          assert w1.thread == Orphan(w.thread, evs[0].id, w.reg.servers[evs[0].id]);
        }
      }
      DeadSchedulerStaysDead(w1, evs[1..], uploadFolder, mode);
    }
  }

  /** The guarded scheduler thread never dies. */
  lemma {:induction false} GuardedSchedulerNeverDies(w: Sched, evs: seq<Event>, uploadFolder: string)
    requires !w.thread.Dead?
    ensures !Run(w, evs, uploadFolder, Guarded).thread.Dead?
    decreases |evs|
  {
    if |evs| > 0 {
      var w1 := Step(w, evs[0], uploadFolder, Guarded);
      assert !w1.thread.Dead? by {
        if evs[0].Action? && evs[0].action == "delete" && ServerAction(w.reg, evs[0].id, "delete", evs[0].env).Success? {
          assert w1.thread == Orphan(w.thread, evs[0].id, w.reg.servers[evs[0].id]);
        }
      }
      GuardedSchedulerNeverDies(w1, evs[1..], uploadFolder);
    }
  }

  // One server `a` in `/srv/a`, running process 0 with auto-restart every 30
  // seconds since time 0; at time 100 the scheduler wakes. While the directory
  // exists, a spawn for `a` succeeds.

  const ServingA := Entry(Some(0), Running, "serve", "", "/srv/a", true, "30s", [], 0)
  const OneDue := Sched(State(map["a" := ServingA], 1), Sleeping)
  const DirIntact := Scheduler.DirsEnv(100, {"/srv/a", "/srv/a/"})

  /** After `delete` has removed the directory of `a`. */
  const DirRemoved := Scheduler.DirsEnv(100, {})

  const WakeAndMark := [SchedulerWake(["a"], 100), SchedulerStep(DirIntact), SchedulerStep(DirIntact)]

  /** `a` with the restart marker logged, while the old process is being killed. */
  const MarkedA := Sched(State(map["a" := ServingA.(logs := [Scheduler.AutoRestartMarker("30s")])], 1),
                         InPass(100, [], Marked("a"), map[]))

  /** The scheduler wakes, finds `a` due and logs the restart marker. */
  lemma WakeAndMarkA(mode: Mode)
    ensures Run(OneDue, WakeAndMark, "", mode) == MarkedA
  {
    assert IsSnapshot(["a"], OneDue.reg);
    var w1 := Step(OneDue, SchedulerWake(["a"], 100), "", mode);
    assert w1 == Sched(OneDue.reg, InPass(100, ["a"], Scanning, map[]));
    assert Scheduler.Due(ServingA, 100);
    var w2 := Step(w1, SchedulerStep(DirIntact), "", mode);
    assert w2 == Sched(OneDue.reg, InPass(100, [], Chosen("a", "30s"), map[]));
    var marked := ServingA.(logs := [Scheduler.AutoRestartMarker("30s")]);
    assert Step(w2, SchedulerStep(DirIntact), "", mode) == Mark(w2);
    assert OneDue.reg.servers.Keys == {"a"};
    assert Mark(w2).reg.servers.Keys == {"a"} && Mark(w2).reg.servers["a"] == marked;
    assert Mark(w2).reg.servers == map["a" := marked];
    var evs := WakeAndMark;
    assert evs[1..] == [SchedulerStep(DirIntact), SchedulerStep(DirIntact)];
    assert Run(OneDue, evs, "", mode) == Run(w1, evs[1..], "", mode);
    assert evs[1..][1..] == [SchedulerStep(DirIntact)];
    assert Run(w1, evs[1..], "", mode) == Run(w2, [SchedulerStep(DirIntact)], "", mode);
    RunOne(w2, SchedulerStep(DirIntact), "", mode);
  }

  /** Two events in a row. */
  lemma RunTwo(w: Sched, e1: Event, e2: Event, uploadFolder: string, mode: Mode)
    ensures Run(w, [e1, e2], uploadFolder, mode) == Step(Step(w, e1, uploadFolder, mode), e2, uploadFolder, mode)
  {
    assert [e1, e2][1..] == [e2];
    RunOne(Step(w, e1, uploadFolder, mode), e2, uploadFolder, mode);
  }

  /** The old monitor reaches end of stream during the kill, then the scheduler
      detaches and starts the new process. */
  lemma EofThenRespawn(mode: Mode)
    ensures var w := Run(MarkedA, [MonitorEof("a", 0), SchedulerStep(DirIntact)], "", mode);
      && "a" in w.reg.servers
      && w.reg.servers["a"].logs == [Scheduler.AutoRestartMarker("30s"), Monitor.ExitMarker]
      && w.reg.servers["a"].status == Running
      && w.reg.servers["a"].process == Some(1)
  {
    RunTwo(MarkedA, MonitorEof("a", 0), SchedulerStep(DirIntact), "", mode);
    var e4 := ServingA.(status := Stopped, logs := [Scheduler.AutoRestartMarker("30s"), Monitor.ExitMarker]);
    var w4 := Sched(State(map["a" := e4], 1), MarkedA.thread);
    assert MarkedA.reg.servers["a"].logs + [Monitor.ExitMarker] == e4.logs;
    assert Monitor.OnEof(MarkedA.reg, "a", 0).servers == MarkedA.reg.servers["a" := e4];
    assert MarkedA.reg.servers["a" := e4] == map["a" := e4];
    assert Step(MarkedA, MonitorEof("a", 0), "", mode) == w4;
    assert SpawnOutcome(e4, DirIntact) == Spawned;
    assert Step(w4, SchedulerStep(DirIntact), "", mode) == Respawn(w4, DirIntact, mode);
  }

  /** While the scheduler kills the old process, that process's monitor still owns
      the server: its exit marker lands after the restart marker, and then the new
      process is started. */
  lemma ExitMarkerDuringAutoRestart(mode: Mode)
    ensures var w := Run(OneDue, WakeAndMark + [MonitorEof("a", 0), SchedulerStep(DirIntact)], "", mode);
      && "a" in w.reg.servers
      && w.reg.servers["a"].logs == [Scheduler.AutoRestartMarker("30s"), Monitor.ExitMarker]
      && w.reg.servers["a"].status == Running
      && w.reg.servers["a"].process == Some(1)
  {
    RunAppend(OneDue, WakeAndMark, [MonitorEof("a", 0), SchedulerStep(DirIntact)], "", mode);
    WakeAndMarkA(mode);
    EofThenRespawn(mode);
  }

  /** The user deletes `a` during the kill, then the scheduler detaches and starts
      the new process for the orphaned entry. */
  lemma DeleteThenRespawn(mode: Mode)
    ensures var w := Run(MarkedA, [Action("a", "delete", DirIntact), SchedulerStep(DirIntact)], "", mode);
      && w.reg.servers == map[] && w.reg.nextToken == 2
      && w.thread.InPass? && "a" in w.thread.orphans
      && w.thread.orphans["a"].status == Running && w.thread.orphans["a"].process == Some(1)
  {
    RunTwo(MarkedA, Action("a", "delete", DirIntact), SchedulerStep(DirIntact), "", mode);
    var e3 := MarkedA.reg.servers["a"];
    var w4 := Sched(State(map[], 1), InPass(100, [], Marked("a"), map["a" := e3]));
    assert Delete(MarkedA.reg, "a").servers == map[];
    assert Step(MarkedA, Action("a", "delete", DirIntact), "", mode) == w4;
    assert SpawnOutcome(e3, DirIntact) == Spawned;
    assert Step(w4, SchedulerStep(DirIntact), "", mode) == Respawn(w4, DirIntact, mode);
  }

  /** A delete while the scheduler kills the old process does not stop the
      restart: if the directory survived the delete's `rmtree`, the thread starts
      a new process for the deleted server, with a token that no server in the
      registry holds. */
  lemma DeleteDuringAutoRestart(mode: Mode)
    ensures var w := Run(OneDue, WakeAndMark + [Action("a", "delete", DirIntact), SchedulerStep(DirIntact)], "", mode);
      && w.reg.servers == map[] && w.reg.nextToken == 2
      && w.thread.InPass? && "a" in w.thread.orphans
      && w.thread.orphans["a"].status == Running && w.thread.orphans["a"].process == Some(1)
  {
    RunAppend(OneDue, WakeAndMark, [Action("a", "delete", DirIntact), SchedulerStep(DirIntact)], "", mode);
    WakeAndMarkA(mode);
    DeleteThenRespawn(mode);
  }

  /** The user deletes `a` during the kill, which also removes its directory;
      then the scheduler tries to start the new process for the orphaned entry. */
  lemma DeleteThenFailedRespawn(mode: Mode)
    ensures var w := Run(MarkedA, [Action("a", "delete", DirRemoved), SchedulerStep(DirRemoved)], "", mode);
      && w.reg.servers == map[] && w.reg.nextToken == 1
      && (mode == AsWritten ==> w.thread.Dead?)
      && (mode == Guarded ==>
            && w.thread.InPass? && "a" in w.thread.orphans
            && w.thread.orphans["a"].status == Stopped && w.thread.orphans["a"].process == None
            && w.thread.orphans["a"].logs == [Scheduler.AutoRestartMarker("30s"), ErrorLine(Scheduler.NoSuchDir)])
  {
    RunTwo(MarkedA, Action("a", "delete", DirRemoved), SchedulerStep(DirRemoved), "", mode);
    var e3 := MarkedA.reg.servers["a"];
    var w4 := Sched(State(map[], 1), InPass(100, [], Marked("a"), map["a" := e3]));
    assert Delete(MarkedA.reg, "a").servers == map[];
    assert Step(MarkedA, Action("a", "delete", DirRemoved), "", mode) == w4;
    assert SpawnOutcome(e3, DirRemoved) == SpawnFailed(Scheduler.NoSuchDir);
    assert Step(w4, SchedulerStep(DirRemoved), "", mode) == Respawn(w4, DirRemoved, mode);
  }

  /** The delete removes the server's directory (`shutil.rmtree`), so the restart
      the thread then attempts for the deleted server fails: as written the
      scheduler thread dies, leaving an empty registry, and no later pass ever
      runs; guarded, the error is logged on the orphan and the pass goes on. */
  lemma DeleteDuringAutoRestartEndsScheduler(mode: Mode)
    ensures var w := Run(OneDue, WakeAndMark + [Action("a", "delete", DirRemoved), SchedulerStep(DirRemoved)], "", mode);
      && w.reg.servers == map[] && w.reg.nextToken == 1
      && (mode == AsWritten ==> w.thread.Dead?)
      && (mode == Guarded ==>
            && w.thread.InPass? && "a" in w.thread.orphans
            && w.thread.orphans["a"].logs == [Scheduler.AutoRestartMarker("30s"), ErrorLine(Scheduler.NoSuchDir)])
  {
    RunAppend(OneDue, WakeAndMark, [Action("a", "delete", DirRemoved), SchedulerStep(DirRemoved)], "", mode);
    WakeAndMarkA(mode);
    DeleteThenFailedRespawn(mode);
  }

  /** Running a single event is taking one step. */
  lemma RunOne(w: Sched, ev: Event, uploadFolder: string, mode: Mode)
    ensures Run(w, [ev], uploadFolder, mode) == Step(w, ev, uploadFolder, mode)
  {
    assert [ev][1..] == [];
  }

  /** Running two event sequences one after the other is running their
      concatenation. */
  lemma {:induction false} RunAppend(w: Sched, a: seq<Event>, b: seq<Event>, uploadFolder: string, mode: Mode)
    ensures Run(w, a + b, uploadFolder, mode) == Run(Run(w, a, uploadFolder, mode), b, uploadFolder, mode)
    decreases |a|
  {
    if |a| > 0 {
      assert (a + b)[0] == a[0] && (a + b)[1..] == a[1..] + b;
      RunAppend(Step(w, a[0], uploadFolder, mode), a[1..], b, uploadFolder, mode);
    } else {
      assert a + b == b;
    }
  }

  // ---------------------------------------------------------------- persistence

  /** The events after which the code calls `save_servers`. */
  predicate SavesConfig(ev: Event) {
    || ev.CreateServer?
    || ev.Settings?
    || (ev.Action? && ev.action == "delete")
  }

  /** Every other event leaves the saved form of the registry unchanged, so saving
      only after create, settings and delete never leaves the file stale. */
  lemma OtherEventsKeepSnapshot(w: Sched, ev: Event, uploadFolder: string, mode: Mode)
    requires !SavesConfig(ev)
    ensures Persistence.Save(Step(w, ev, uploadFolder, mode).reg.servers) == Persistence.Save(w.reg.servers)
  {
    Persistence.SaveSeesOnlyConfig(Step(w, ev, uploadFolder, mode).reg.servers, w.reg.servers);
  }
}

=== FILE: text.dfy ===
/** The handful of Python string, path and list primitives the registry relies on:
    `str.strip()`, `str.replace(" ", "_")`, `os.path.join` for two components and
    the list slice `l[-n:]`. */
module Text {

  /** Python's `str.isspace()` for one character: the characters `str.strip()` removes. */
  predicate IsSpace(c: char) {
    || ('\U{9}' <= c <= '\U{D}')
    || ('\U{1C}' <= c <= '\U{20}')
    || c == '\U{85}' || c == '\U{A0}' || c == '\U{1680}'
    || ('\U{2000}' <= c <= '\U{200A}')
    || c == '\U{2028}' || c == '\U{2029}' || c == '\U{202F}' || c == '\U{205F}'
    || c == '\U{3000}'
  }

  predicate AllSpace(s: string) {
    forall k :: 0 <= k < |s| ==> IsSpace(s[k])
  }

  /** Neither end of `s` is whitespace (vacuously true of the empty string). */
  predicate NoEdgeSpace(s: string) {
    |s| == 0 || (!IsSpace(s[0]) && !IsSpace(s[|s| - 1]))
  }

  /** Number of whitespace characters at the front of `s`. */
  function LeadingSpaces(s: string): (n: nat)
    ensures n <= |s|
    ensures AllSpace(s[..n])
    ensures n < |s| ==> !IsSpace(s[n])
  {
    if |s| == 0 || !IsSpace(s[0]) then 0
    else
      var m := LeadingSpaces(s[1..]);
      assert s[1..][..m] == s[1..m + 1];
      1 + m
  }

  /** Number of whitespace characters at the back of `s`. */
  function TrailingSpaces(s: string): (n: nat)
    ensures n <= |s|
    ensures AllSpace(s[|s| - n..])
    ensures n < |s| ==> !IsSpace(s[|s| - 1 - n])
  {
    if |s| == 0 || !IsSpace(s[|s| - 1]) then 0
    else
      var m := TrailingSpaces(s[..|s| - 1]);
      assert s[..|s| - 1][|s| - 1 - m..] == s[|s| - 1 - m..|s| - 1];
      1 + m
  }

  /** `r` is `s` with the whitespace prefix `s[..i]` and a whitespace suffix cut off. */
  ghost predicate StrippedAt(s: string, r: string, i: int) {
    && 0 <= i <= |s| - |r|
    && s[i..i + |r|] == r
    && AllSpace(s[..i])
    && AllSpace(s[i + |r|..])
  }

  /** Python's `str.strip()` with no argument; `StripSpec` and `StripUnique`
      characterise it. */
  function Strip(s: string): string {
    var i := LeadingSpaces(s);
    if i == |s| then [] else s[i..|s| - TrailingSpaces(s)]
  }

  /** `strip()` returns an infix of its input whose surroundings are all whitespace
      and whose ends are not. */
  lemma StripSpec(s: string)
    ensures NoEdgeSpace(Strip(s))
    ensures exists i :: StrippedAt(s, Strip(s), i)
  {
    var i := LeadingSpaces(s);
    if i == |s| {
      assert StrippedAt(s, [], i) by { assert s[..i] == s; }
    } else {
      var j := |s| - TrailingSpaces(s);
      assert StrippedAt(s, s[i..j], i);
    }
  }

  /** The leading whitespace run is the only prefix that is all whitespace and is
      followed by a non-whitespace character or by nothing. */
  lemma LeadingSpacesUnique(s: string, i: nat)
    requires i <= |s|
    requires AllSpace(s[..i])
    requires i < |s| ==> !IsSpace(s[i])
    ensures i == LeadingSpaces(s)
  {
    var l := LeadingSpaces(s);
    assert forall k :: 0 <= k < l ==> s[..l][k] == s[k];
    assert forall k :: 0 <= k < i ==> s[..i][k] == s[k];
  }

  /** Mirror image of `LeadingSpacesUnique` for the trailing run. */
  lemma TrailingSpacesUnique(s: string, n: nat)
    requires n <= |s|
    requires AllSpace(s[|s| - n..])
    requires n < |s| ==> !IsSpace(s[|s| - 1 - n])
    ensures n == TrailingSpaces(s)
  {
    var m := TrailingSpaces(s);
    assert forall k :: |s| - m <= k < |s| ==> s[|s| - m..][k - (|s| - m)] == s[k];
    assert forall k :: |s| - n <= k < |s| ==> s[|s| - n..][k - (|s| - n)] == s[k];
  }

  /** Stripping is determined by its two defining properties: no other infix of `s`
      with whitespace-only surroundings and non-whitespace ends exists. */
  lemma {:induction false} StripUnique(s: string, r: string, i: int)
    requires NoEdgeSpace(r)
    requires StrippedAt(s, r, i)
    ensures r == Strip(s)
  {
    var e := i + |r|;
    if |r| == 0 {
      // Both cut-off parts are whitespace, so all of `s` is.
      assert forall k :: 0 <= k < i ==> s[..i][k] == s[k];
      assert forall k :: i <= k < |s| ==> s[i..][k - i] == s[k];
      assert s[..|s|] == s;
      LeadingSpacesUnique(s, |s|);
    } else {
      assert s[i] == r[0];
      LeadingSpacesUnique(s, i);
      assert s[e - 1] == r[|r| - 1];
      TrailingSpacesUnique(s, |s| - e);
    }
  }

  /** Stripping twice is stripping once. */
  lemma StripIdempotent(s: string)
    ensures Strip(Strip(s)) == Strip(s)
  {
    var r := Strip(s);
    StripSpec(s);
    assert r[0..0 + |r|] == r;
    assert r[..0] == [];
    assert r[0 + |r|..] == [];
    StripUnique(r, r, 0);
  }

  /** Python's `s.replace(a, b)` for single characters `a` and `b`. */
  function ReplaceChar(s: string, a: char, b: char): (r: string)
    ensures |r| == |s|
    ensures forall k :: 0 <= k < |s| ==> r[k] == (if s[k] == a then b else s[k])
  {
    if |s| == 0 then []
    else [if s[0] == a then b else s[0]] + ReplaceChar(s[1..], a, b)
  }

  /** Python's `l[-n:]` for a positive `n`: the last `n` items, or all of them. */
  function TakeLast<T>(l: seq<T>, n: nat): (r: seq<T>)
    requires n > 0
    ensures |r| == if |l| <= n then |l| else n
  {
    if |l| <= n then l else l[|l| - n..]
  }

  /** Appending to a window that was already cut down to `n` items gives the same
      window as appending to the whole history: truncation loses nothing that a
      later truncation would have kept. */
  lemma TakeLastConcat<T>(l: seq<T>, b: seq<T>, n: nat)
    requires n > 0
    ensures TakeLast(TakeLast(l, n) + b, n) == TakeLast(l + b, n)
  {
    if |l| > n {
      var w := l[|l| - n..] + b;
      assert forall k :: 0 <= k < |w| ==> w[k] == (l + b)[|l| - n + k];
    }
  }

  /** Regrouping a concatenation around one item (stated for an abstract item type,
      where the solver proves it cheaply). */
  lemma AppendAssoc<T>(a: seq<T>, x: T, b: seq<T>)
    ensures a + [x] + b == a + ([x] + b)
  {
  }

  /** A window no longer than the appended tail holds only items of the tail. */
  lemma TakeLastOfLongTail<T>(l: seq<T>, b: seq<T>, n: nat)
    requires 0 < n <= |b|
    ensures TakeLast(l + b, n) == b[|b| - n..]
  {
    assert (l + b)[|l| + |b| - n..] == b[|b| - n..];
  }

  /** `os.path.join(a, b)` (POSIX): an absolute `b` replaces `a`; otherwise one
      separator is inserted unless `a` is empty or already ends in one. */
  function JoinPath(a: string, b: string): (r: string)
    ensures |b| > 0 && b[0] == '/' ==> r == b
    ensures !(|b| > 0 && b[0] == '/') ==>
      && |a| + |b| <= |r| <= |a| + |b| + 1
      && r[..|a|] == a
      && r[|r| - |b|..] == b
      && (|r| == |a| + |b| + 1 <==> |a| > 0 && a[|a| - 1] != '/')
      && (|r| == |a| + |b| + 1 ==> r[|a|] == '/')
  {
    if |b| > 0 && b[0] == '/' then b
    else if |a| == 0 || a[|a| - 1] == '/' then a + b
    else a + "/" + b
  }
}
